=== FILE: README.md ===
# Audit log hash chain

A Dafny model of the tamper-evident audit log kept by `AuditLogger`. Each
change to a resource becomes a row of `audit_logs`. The row carries an
HMAC-SHA256 link over the previous row's hash and over a six-field record
(`actor`, `action`, `resource`, `timestamp`, `old`, `new`), which is
serialised with `json.dumps(..., sort_keys=True)`.
`verify_chain_integrity` rebuilds each row's record, recomputes the link and
lists the rows whose stored hash does not match. `get_resource_history`
returns the newest rows of one resource. `track_changes` logs an `UPDATE`
when a resource's state differs before and after a block.

The model is pure.

- The table is a `seq<Entry>` in `created_at` order. Each append puts its
  row last, which assumes the database clock never steps back (Left out).
- `log_change` is a function from log to log. The Python clock, the
  database clock and the generated row id are its parameters.
- HMAC-SHA256 under the secret key is a function value inside `Signer`.
  Lemmas that need a collision-free mac say so with `Injective`.
- Python values that reach `json.dumps` are the `Json.Value` datatype:
  None, bool, int, str, list and dict. A dict is its members in insertion
  order.

Modules:

- `Optional`: an optional value (SQL NULL, Python's `None`).
- `StrOrder`: Python's ordering of `str` keys (code-point lexicographic).
- `JsonText`: integer text and string literals with `ensure_ascii` escaping.
- `Json`: the value datatype and `json.dumps` with sorted keys and the
  default separators.
- `JsonEquiv`: equality up to member order, and Python's `==` (where
  `True == 1`).
- `Scan`: the front-to-back scan shape of the verifier.
- `AuditChain`: the record, `_compute_hash`, `log_change`,
  `verify_chain_integrity`, and tamper locality.
- `RecordLayout`: the exact text of a serialised record.
- `IsoClock`: `datetime.isoformat()`, for the naive Python clock and for
  the offset-carrying `created_at`.
- `Divergence`: the places where append and verification hash different
  records, and the broken rows that follow (see Findings).
- `Corrected`: an append that signs what it stores and a scan that chains
  each row to the row before it.
- `History`: `get_resource_history`, both as a reference definition and as a
  scanning method.
- `TrackChanges`: the decision `track_changes` makes after its block.

## Code as written

The model follows `audit_logger.py`, including where it does not do what
its docstrings and comments suggest:

- **Linking.** The code recomputes each row's hash from the row's own
  stored `previous_hash`. Its running `previous_hash` is assigned and never
  read.
  - `AuditChain` models the code.
  - `Corrected.LinkedVerify` is the alternative: each row is chained to the
    stored hash of the row scanned before it, "genesis" for the first.
  - The two agree on linked chains (`Corrected.LinkedVerifyAgrees`). They
    differ on deletions (Findings).
- **Ordering.** Rows are ordered by `created_at`: ascending for the scan
  and the tip, descending for history. The log here is in `created_at`
  order, and an append puts its row last: each new `created_at` is taken to
  sort after the tip's. Rows that share a `created_at` are not told apart,
  and a clock that steps back is not modelled (Left out).
- **Timestamp.** The code hashes `datetime.utcnow().isoformat()` at append
  time. That value is naive, so its text has no UTC offset. At verification
  it hashes `created_at.isoformat()`, read from a `TIMESTAMP WITH TIME
  ZONE` column, so that text always ends in an offset such as `+00:00`.
  - The two texts are never equal (`IsoClock.NaiveNeverAware`).
  - So every row `log_change` writes is reported as broken, and a
    non-empty log never verifies (`Divergence.EveryRowBreaks`).
- **Tampering.** On a chain that verified, overwriting one row's `new`
  values without its hash is reported at that row only
  (`AuditChain.TamperNewValues`, `Corrected.LinkedTamperValidChain`).
  - No chain written by `log_change` as it stands verifies, so for the code
    as written these lemmas apply only to chains built some other way.
  - Chains built by the corrected append do verify
    (`Corrected.ReplayRecordedAccepted`), so the scenario holds for them.

## Model

| member | source | states |
|---|---|---|
| JsonText.IntToStringRoundTrip | audit_logger.py:125 | reading an integer's JSON text back (a leading '-', then decimal digits) gives the integer |
| JsonText.IntToStringInjective | audit_logger.py:125 | distinct integers have distinct JSON texts |
| JsonText.DecodeEscapeChar | audit_logger.py:125 | with `ensure_ascii`, reading one character's escape back from the front of any text (`\n`, `\uXXXX`, a surrogate pair beyond U+FFFF, or the character itself) gives that character and consumes exactly its escape |
| JsonText.UnescapeEscape | audit_logger.py:125 | the decoder `Unescape` inverts `Escape`: the escaped text reads back as exactly the code points of the original. `Unescape` is looser than `json.loads`: it does not check that a high surrogate is followed by `\u` and a low surrogate, which every text `Escape` produces satisfies |
| JsonText.EscapeInjective | audit_logger.py:125 | distinct strings have distinct escaped texts |
| JsonText.QuoteInjective | audit_logger.py:125 | distinct strings have distinct JSON literals |
| JsonText.EscapePlain | audit_logger.py:125 | text made only of plain characters (such as an ISO timestamp or the record's keys) is written unchanged |
| Json.SortByKeyPermutes | audit_logger.py:124-125 | sorting a dict's members by key keeps exactly the members it was given (a permutation) |
| Json.SortByKeySorted | audit_logger.py:124-125 | members with distinct keys come out in strictly increasing key order |
| Json.SortedUnique | audit_logger.py:124-125 | two strictly key-sorted member lists holding the same members are identical, so the sorted order is unique |
| JsonEquiv.EquivSameDumps | audit_logger.py:124-125 | two well-formed values that differ only in the insertion order of their dict members, at any depth, serialise to the same text |
| JsonEquiv.PermutedMembersSameDumps | audit_logger.py:124-125 | a dict whose members are a permutation of another's serialises to the same text |
| JsonEquiv.EquivImpliesPyEq | audit_logger.py:210 | values equal up to member order are equal under Python's `==` |
| AuditChain.LogDataWellFormed | audit_logger.py:153-160 | the six-field record is a well-formed dict exactly when its timestamp, old and new values are |
| AuditChain.ComputeHashKeyOrderFree | audit_logger.py:113-126 | the link over a record does not depend on the insertion order of its members, whatever the mac |
| AuditChain.LogDataEquiv | audit_logger.py:153-160 | records built from old and new values that are equal up to member order are themselves equal up to member order |
| AuditChain.ExpectedIgnoresColumnOrder | audit_logger.py:280-291 | the hash recomputed for a row is the same whatever order the JSONB columns return the members of its old and new values in |
| AuditChain.HashMessageDeterminesPrevious | audit_logger.py:125 | for a fixed record, the signed message `previous:json` determines the previous hash |
| AuditChain.Append | audit_logger.py:140-176 | appending adds exactly one row at the end and leaves the earlier rows unchanged. The new row's previous hash is "genesis" on an empty log and the last row's hash otherwise. Its hash is the mac over that tip and the record stamped with the Python clock. Its JSONB columns hold the stored values |
| AuditChain.AppendKeepsLinked | audit_logger.py:143-176 | if every row stores the hash of the row before it ("genesis" for the first), this still holds after an append |
| AuditChain.EntryBreaks | audit_logger.py:290-298 | a row adds at most one break, and none exactly when the hash recomputed from its own stored fields equals its stored hash; a break carries the row's id, the recomputed hash as `expected` and the stored hash as `found`, and the two differ |
| AuditChain.Verify | audit_logger.py:271-302 | an empty log is `(true, [])`; the log is valid exactly when the break list is empty, exactly when every row is intact |
| AuditChain.VerifyChainIntegrity | audit_logger.py:259-302 | the loop returns the reference result, including the dead running `previous_hash`; a break is listed exactly for each row that is not intact, carrying that row's id and both hashes |
| AuditChain.BreaksEmpty | audit_logger.py:293-302 | no break is reported exactly when every row's recomputed hash equals its stored one |
| AuditChain.BreakReported | audit_logger.py:293-298 | a break is in the report exactly when some row is not intact and the break is that row's |
| AuditChain.BreaksBounded | audit_logger.py:293-298 | the report has at most one break per row |
| AuditChain.TamperLocality | audit_logger.py:277-300 | replacing row k by any row changes only row k's part of the report, which sits between the parts of the rows before and after it, in scan order |
| AuditChain.TamperValidChain | audit_logger.py:277-302 | on a chain that verified, replacing one row gives a report of that row alone: valid exactly when the new row is intact |
| AuditChain.TamperNewValues | audit_logger.py:281-298 | on a chain that verified, overwriting one row's `new_values` without its hash is reported as exactly one break at that row (stored hash as `found`), or not at all if the recomputed hash still matches |
| AuditChain.DeletionUndetected | audit_logger.py:277-300 | deleting any row from a chain that verified leaves a chain that verifies |
| AuditChain.AppendThenVerify | audit_logger.py:143-176 | after an append to a chain that verified, the report is that of the new row alone |
| RecordLayout.CanonicalRecordLayout | audit_logger.py:153-160 | the record serialises as `{"action": …, "actor": …, "new": …, "old": …, "resource": "type:id", "timestamp": …}`, fields alphabetical whatever the construction order |
| RecordLayout.RecordClockSuffix | audit_logger.py:153-160 | a record whose timestamp needs no escaping ends with `"<timestamp>"}`, whatever its other members hold |
| RecordLayout.ClockSuffixDetermines | audit_logger.py:153-160 | a text can end in only one quoted, quote-free timestamp followed by `}` |
| RecordLayout.TimestampFromRecord | audit_logger.py:157 | two records whose timestamps need no escaping have the same text only if the timestamps are equal, even when their old and new values differ |
| IsoClock.IsoFormat | audit_logger.py:157 | `isoformat()` has 19 characters, 7 more with microseconds and 6 more with a UTC offset |
| IsoClock.IsoFormatPlain | audit_logger.py:157 | an ISO timestamp needs no escaping in JSON |
| IsoClock.IsoFormatInjective | audit_logger.py:285 | distinct `datetime` values have distinct ISO texts (`fromisoformat` inverts `isoformat`) |
| IsoClock.DecTextRoundTrip | audit_logger.py:157 | a zero-padded field of k digits reads back as the number it was written from, for any number below 10^k |
| IsoClock.NaiveNeverAware | audit_logger.py:157 | the text of a naive `datetime` (such as `utcnow()`) never equals the text of an aware one (such as a `TIMESTAMP WITH TIME ZONE` value) |
| Divergence.IntactMeansSameText | audit_logger.py:291-293 | under a collision-free mac, a row signed over record `data` verifies only if the rebuilt record has the same text as `data` |
| Divergence.AppendedReconstruct | audit_logger.py:281-288 | the record rebuilt from a freshly appended row carries the database's `created_at` and the stored old/new values, not the ones that were hashed |
| Divergence.SameTextSameClock | audit_logger.py:157 | the record `log_change` hashes and the record rebuilt from its row have the same text only if the Python clock text equals the `created_at` text |
| Divergence.ClockMismatchBreaks | audit_logger.py:157 | when the Python clock text differs from the row's `created_at` text, the row just appended is not intact and the whole chain fails verification, whatever values the change carries |
| Divergence.StepBreaks | audit_logger.py:153-176 | a `log_change` with a naive Python clock and an aware `created_at` appends one broken row and leaves the rows before it unchanged |
| Divergence.EveryRowBreaks | audit_logger.py:153-176 | every row of a log written by `log_change` calls is reported as broken, so a non-empty log never verifies |
| Divergence.FalsyTextLength | audit_logger.py:172-173 | a falsy value other than None (`0`, `""`, `[]`, `{}`, `false`) has a text of one, two or five characters, so a different length than the `null` stored in its place |
| Divergence.StoredTextLength | audit_logger.py:172-173 | storing changes a value's text exactly when the value is falsy and not None |
| Divergence.StoredPairLength | audit_logger.py:172-173 | when the old or the new value (or both) is falsy and not None, the values as hashed and the values as stored have texts of different combined length |
| Divergence.FalsyValueBreaks | audit_logger.py:172-173 | a falsy non-None old or new value (either one, or both) makes the row just appended fail verification, even when both clocks agree |
| Divergence.EmptyDictBreaks | audit_logger.py:172-173 | `log_change(..., old_val={})` leaves a broken row and a chain that fails verification, whatever the new value and whatever the two clock texts: differing clocks break it by the timestamp, agreeing clocks by the empty dict |
| Corrected.AppendRecorded | audit_logger.py:153-176 | an append that signs the row's own `created_at` and the values as stored adds one row at the end, chained to the tip, and that row is intact |
| Corrected.AppendRecordedKeepsValid | audit_logger.py:281-302 | appending what is stored to a chain that verified gives a chain that verifies with no breaks, for any values, with the new row last in `created_at` order |
| Corrected.AppendRecordedKeepsLinked | audit_logger.py:143-176 | the corrected append keeps every row linked to its predecessor |
| Corrected.ReplayRecordedAccepted | audit_logger.py:140-176 | a log built by the corrected append from an empty table is linked and passes both scans with nothing reported, for any values and for clocks whose `created_at` values increase in call order (ids in canonical UUID text) |
| Corrected.LinkedEntryBreaks | audit_logger.py:291-298 | with the running link, a row adds at most one break, and none exactly when the mac of the running link and its rebuilt record equals its stored hash; a break carries the row's id, that mac and the stored hash, and the two differ |
| Corrected.LinkedVerify | audit_logger.py:271-302 | with the running link, an empty log is `(true, [])`, and the log is valid exactly when nothing is broken, exactly when every row's hash is the mac of the previous row's stored hash ("genesis" first) and its own rebuilt record |
| Corrected.LinkedVerifyAgrees | audit_logger.py:275-300 | on a linked chain, the running-link scan and the scan as written give the same result |
| Corrected.LinkedTamperLocality | audit_logger.py:277-300 | with the running link advanced to stored hashes, rewriting row k's payload but not its hash changes only row k's part of the report |
| Corrected.LinkedTamperValidChain | audit_logger.py:277-302 | on a chain the running-link scan accepts, such a rewrite is reported at that row only, or not at all |
| Corrected.SuccessorLink | audit_logger.py:275-300 | under a collision-free mac, if the chain without row k still passes the running-link scan, the link before row k equals row k's hash |
| Corrected.DeletionDetected | audit_logger.py:275-300 | with unique stored hashes and a collision-free mac that never yields "genesis", deleting any row but the newest from an accepted chain makes the running-link scan fail |
| Corrected.IdealSignerExists | audit_logger.py:113-126 | a signer that is collision-free and never yields "genesis" exists, so the deletion lemmas can be applied |
| Corrected.DeletionCaughtOnlyByLinkedScan | audit_logger.py:275-300 | on a linked chain that verified, the same deletion passes the scan as written and fails the running-link scan |
| History.RecordsSplit | audit_logger.py:331-332 | the history of a log's concatenation is the later part's history followed by the earlier part's (newest first) |
| History.OriginsDescribeRecords | audit_logger.py:331-332 | each history record comes from a matching row, at positions that strictly decrease (newest first), and every matching row contributes one |
| History.RecordsMembership | audit_logger.py:331 | a record is in the unlimited history exactly when some row of that resource type and id produced it |
| History.GetResourceHistory | audit_logger.py:307-346 | a backward scan that stops after `limit` records returns the reference history; it is refused exactly for a negative limit, returns at most `limit` records, and each returned record belongs to the resource's history |
| History.AppendHeadsHistory | audit_logger.py:331-333 | a row appended for the resource heads its history, followed by the previous history cut to `limit - 1` |
| History.AppendOtherKeepsHistory | audit_logger.py:331 | a row appended for another resource leaves the history unchanged, for every limit |
| History.LoggedChangeHeadsHistory | audit_logger.py:331-333 | the row `log_change` writes is the first record of its resource's history under the default limit of 100 |
| TrackChanges.TrackChanges | audit_logger.py:202-218 | the log grows by exactly one row when the states differ under Python's `==`, and not at all otherwise. The earlier rows are unchanged. The new row is an `UPDATE` by the actor, holding the stored before and after states and chained to the tip |
| TrackChanges.UnchangedLogsNothing | audit_logger.py:209-210 | a block that leaves the state equal up to member order logs nothing |
| TrackChanges.TrueEqualsOneLogsNothing | audit_logger.py:210 | a member that goes from `True` to `1` is no change for Python, so nothing is logged |
| TrackChanges.ChangeIsAppended | audit_logger.py:210-218 | a logged change on a chain that verified leaves a report of the new row alone |

## Left out

- Database plumbing is not modelled: the connection pool, `_get_conn`, `_return_conn`, `close` and `_init_db`'s DDL. The one exception is the `UNIQUE` constraint on `hash`, which appears as the `Corrected.UniqueHashes` requirement.
- Transactions, `commit`, `rollback` and exceptions re-raised by `log_change` are not modelled. An append either happens whole or not at all.
- Concurrency is left out. Two writers that read the same tip are not modelled. Append is one sequential step.
- `_get_current_state` is left out. It runs dynamic SQL against unknown tables and swallows every error. The states before and after are parameters of `TrackChanges.TrackChanges`.
- The generator mechanics of `track_changes` are left out, and so is the `audit_logged` decorator. The decorator relies on reflection (`func.__name__`, `hasattr`).
- HMAC-SHA256 and the UTF-8 encoding of the message are the mac function in `Signer`. Collision-freedom (`Injective`) and never producing the text "genesis" (`Corrected.NeverGenesis`, which a hex digest cannot equal) are stated only where a lemma needs them.
- `datetime.utcnow()`, `CURRENT_TIMESTAMP` and `gen_random_uuid()` are parameters of the append. The append takes timestamps as ISO text; `IsoClock` says which texts the two clocks produce.
- `IsoClock.Valid` bounds days by 31 in every month, because the text does not depend on the calendar. UTC offsets are whole minutes: psycopg2 can also return an offset with seconds (`+HH:MM:SS`) for some historical zones, which is not modelled. Time-zone arithmetic is not modelled.
- The id `log_change` returns is not a separate result. It is the `id` field of the appended row.
- Ties in `created_at` are not modelled. The log has one fixed order, and the tip is its last row.
- Every append puts its row last, so the model assumes each new `created_at` sorts after the tip's: the database clock never steps back between two `log_change` calls. The code reads the tip with `ORDER BY created_at DESC LIMIT 1` (lines 144-150) and scans with `ORDER BY created_at ASC` (line 267). If the clock stepped back, the new row would sort before the old tip, the next call would chain to that old tip again, and the running-link scan would reject a table nobody changed. Sorted insertion is not modelled.
- Floats and non-JSON Python values are left out. `psycopg2`'s `Json` adapter and JSONB storage are taken to return the dict with the same members, possibly reordered. Normalisations beyond member order (duplicate keys, number formatting) are not modelled.
- The `resource_type` column is nullable, but `None` is not modelled: resource types are strings. `VARCHAR(50)` and `UUID` typing are not enforced.
- `actor_id` and `resource_id` are modelled as text that the database stores unchanged. This holds only for ids already in PostgreSQL's canonical UUID text (lower-case, hyphenated, lines 53 and 56). `log_change` hashes the caller's spelling (`str(actor_id)` at line 154, `f"{resource_type}:{resource_id}"` at line 156), while `verify_chain_integrity` rebuilds the record from the column (lines 282 and 284). So an id passed as an upper-case, brace-wrapped or unhyphenated string gives a row that never verifies. The model does not express this third divergence: PostgreSQL's UUID parsing and printing are not modelled. For the same reason `History.Matches` compares id text exactly, while the filter `resource_id = %s` at line 331 compares UUID values: there an upper-case id matches canonical rows and a non-UUID id is a database error.
- Corrected.AppendRecorded: its row is intact for any clocks and values, but only for ids already in canonical UUID text. For other spellings the corrected append would also have to sign the id as the column stores it, which the model does not define.
- Corrected.ReplayRecordedAccepted: the same restriction on ids as Corrected.AppendRecorded, and it holds only for clocks whose `created_at` values increase in call order, because the replay puts each row last (see the clock line above).
- `get_resource_history` with `limit=None` is modelled as PostgreSQL's `LIMIT NULL` (every row). A negative limit is the database's refusal, `History.Refused`.
- The `__main__` demonstration block is not modelled.
- Corrected.DeletionDetected: it excludes the newest row. Deleting the last row leaves a valid shorter chain, and no scan of the table alone can see that; it needs a tip kept elsewhere.
- Divergence.IntactMeansSameText: it holds only for a collision-free mac. A real HMAC makes this true except with negligible probability, which the model does not quantify.

## Findings

| source | as written | input that shows it | evidently intended | confidence | as-written member | corrected member |
|---|---|---|---|---|---|---|
| audit_logger.py:157 | the appended record is stamped with `datetime.utcnow().isoformat()`, a naive time with no UTC offset, while verification rebuilds it with `created_at.isoformat()` (line 285), read from a `TIMESTAMP WITH TIME ZONE` column (line 61) and so always ending in an offset | any `log_change` at all, e.g. hashed `2024-05-01T10:00:00.123456` against rebuilt `2024-05-01T10:00:00.123789+00:00`: every row is reported as broken and a non-empty log never verifies | sign the timestamp that is stored with the row | not executed | Divergence.EveryRowBreaks | Corrected.ReplayRecordedAccepted |
| audit_logger.py:172-173 | a falsy old or new value (`{}`, `[]`, `""`, `0`, `False`) is hashed as itself but stored as NULL, so verification rebuilds `null` in its place | `log_change(actor, "UPDATE", "INVOICE", inv, old_val={}, new_val={"status": "paid"})`: the row is reported as broken even on a run where both timestamp texts agree | hash the values as they are stored | not executed | Divergence.FalsyValueBreaks | Corrected.AppendRecorded |
| audit_logger.py:275-300 | the running `previous_hash` is assigned on every row and never read; each row is checked against its own stored `previous_hash` | delete any row from a chain that verified: `verify_chain_integrity` still returns `(True, [])` | chain each row to the stored hash of the row scanned before it | not executed | AuditChain.DeletionUndetected | Corrected.DeletionDetected |

=== FILE: audit_chain.dfy ===
/** The hash chain of `AuditLogger` as it is written: the six-field record
    hashed for each change, the keyed link over the previous hash and the
    record's sorted-key JSON text, `log_change` as an append to the log, and
    `verify_chain_integrity` as a scan of the log that reports every entry
    whose stored hash does not match its recomputed one.

    The log is the `audit_logs` table read in `created_at` order. The
    database's clock, the Python clock and the generated row id are
    parameters of the append. */
module AuditChain {
  import opened Json
  import JsonEquiv
  import Scan
  import opened Optional

  /** The previous hash of the first entry ever written. */
  const Genesis := "genesis"

  /** HMAC-SHA256 under the logger's secret key: `mac(secret, message)`
      stands for the hex digest of the UTF-8 encoded message. The digest
      function is left abstract; every property below holds for any choice
      of it unless a lemma asks for `Injective`. */
  datatype Signer = Signer(mac: (string, string) -> string, secret: string)

  /** No two messages share a digest under this signer's key (an idealised
      collision-free HMAC). */
  ghost predicate Injective(s: Signer) {
    forall m1, m2 :: s.mac(s.secret, m1) == s.mac(s.secret, m2) ==> m1 == m2
  }

  /** One row of `audit_logs`. `Null` in `oldValues` / `newValues` is SQL
      NULL; `createdAt` is the ISO text of the `created_at` column. */
  datatype Entry = Entry(
    id: string,
    actorId: string,
    action: string,
    resourceType: string,
    resourceId: string,
    oldValues: Value,
    newValues: Value,
    previousHash: string,
    hash: string,
    createdAt: Option<string>)

  /** The table in ascending `created_at` order. */
  type Log = seq<Entry>

  /** The arguments of `log_change`. */
  datatype Change = Change(
    actorId: string,
    action: string,
    resourceType: string,
    resourceId: string,
    oldVal: Value,
    newVal: Value)

  /** One element of the broken-link list: the row id, the recomputed hash
      and the stored one. */
  datatype Break = Break(id: string, expected: string, found: string)

  /** The dict hashed for one entry, members in the order the source
      builds them; `resource` joins type and id with a colon. */
  function LogData(actor: string, action: string, resourceType: string, resourceId: string,
                   timestamp: Value, oldVal: Value, newVal: Value): (d: Value)
  {
    Obj([
      Member("actor", Str(actor)),
      Member("action", Str(action)),
      Member("resource", Str(resourceType + ":" + resourceId)),
      Member("timestamp", timestamp),
      Member("old", oldVal),
      Member("new", newVal)])
  }

  /** The record is a well-formed dict whenever the values put in it are. */
  lemma LogDataWellFormed(actor: string, action: string, resourceType: string, resourceId: string,
                          timestamp: Value, oldVal: Value, newVal: Value)
    ensures var d := LogData(actor, action, resourceType, resourceId, timestamp, oldVal, newVal);
            WellFormed(d) <==> WellFormed(timestamp) && WellFormed(oldVal) && WellFormed(newVal)
  {
    var d := LogData(actor, action, resourceType, resourceId, timestamp, oldVal, newVal);
    assert d.members[3].value == timestamp && d.members[4].value == oldVal && d.members[5].value == newVal;
  }

  /** The text that is signed: previous hash, a colon, the canonical JSON. */
  function HashMessage(previousHash: string, data: Value): string {
    previousHash + ":" + Dumps(data)
  }

  function ComputeHash(s: Signer, previousHash: string, data: Value): string {
    s.mac(s.secret, HashMessage(previousHash, data))
  }

  /** The link depends on the record's members, not on the order in which
      they were inserted. */
  lemma ComputeHashKeyOrderFree(s: Signer, previousHash: string, d1: Value, d2: Value)
    requires WellFormed(d1) && WellFormed(d2)
    requires JsonEquiv.Equiv(d1, d2)
    ensures ComputeHash(s, previousHash, d1) == ComputeHash(s, previousHash, d2)
  {
    JsonEquiv.EquivSameDumps(d1, d2);
  }

  /** For a fixed record, the signed message determines the previous hash. */
  lemma HashMessageDeterminesPrevious(p1: string, p2: string, data: Value)
    requires HashMessage(p1, data) == HashMessage(p2, data)
    ensures p1 == p2
  {
    var m1, m2 := HashMessage(p1, data), HashMessage(p2, data);
    assert |p1| == |p2|;
    assert p1 == m1[..|p1|] == m2[..|p2|] == p2;
  }

  /** The hash the next entry chains to: the newest entry's, or "genesis". */
  function Tip(log: Log): string {
    if |log| == 0 then Genesis else log[|log| - 1].hash
  }

  /** Python truthiness, which decides `Json(v) if v else None`. */
  predicate Truthy(v: Value) {
    match v
    case Null => false
    case Bool(b) => b
    case Int(n) => n != 0
    case Str(s) => |s| > 0
    case Arr(elems) => |elems| > 0
    case Obj(ms) => |ms| > 0
  }

  /** What the JSONB column receives for a value passed to `log_change`. */
  function StoredValue(v: Value): Value {
    if Truthy(v) then v else Null
  }

  /** `log_change`: read the tip, hash the record stamped with the Python
      clock `hashedAt`, insert one row. `id` and `createdAt` are what the
      database assigns to the new row. */
  function Append(s: Signer, log: Log, c: Change, hashedAt: string, id: string, createdAt: string): (r: Log)
    ensures |r| == |log| + 1
    ensures r[..|log|] == log
    ensures |log| == 0 ==> r[|log|].previousHash == Genesis
    ensures |log| > 0 ==> r[|log|].previousHash == log[|log| - 1].hash
    ensures r[|log|].hash == ComputeHash(s, r[|log|].previousHash,
              LogData(c.actorId, c.action, c.resourceType, c.resourceId, Str(hashedAt), c.oldVal, c.newVal))
    ensures r[|log|].oldValues == (if Truthy(c.oldVal) then c.oldVal else Null)
    ensures r[|log|].newValues == (if Truthy(c.newVal) then c.newVal else Null)
    ensures r[|log|].id == id && r[|log|].createdAt == Some(createdAt)
    ensures r[|log|].actorId == c.actorId && r[|log|].action == c.action
    ensures r[|log|].resourceType == c.resourceType && r[|log|].resourceId == c.resourceId
  {
    var previousHash := Tip(log);
    var data := LogData(c.actorId, c.action, c.resourceType, c.resourceId, Str(hashedAt), c.oldVal, c.newVal);
    log + [Entry(id, c.actorId, c.action, c.resourceType, c.resourceId,
                 StoredValue(c.oldVal), StoredValue(c.newVal),
                 previousHash, ComputeHash(s, previousHash, data), Some(createdAt))]
  }

  /** Every entry stores the hash of the entry before it, the first one
      "genesis". The code keeps this on every append; nothing checks it. */
  predicate Linked(log: Log) {
    && (|log| > 0 ==> log[0].previousHash == Genesis)
    && forall i :: 0 < i < |log| ==> log[i].previousHash == log[i - 1].hash
  }

  lemma AppendKeepsLinked(s: Signer, log: Log, c: Change, hashedAt: string, id: string, createdAt: string)
    requires Linked(log)
    ensures Linked(Append(s, log, c, hashedAt, id, createdAt))
  {
    var r := Append(s, log, c, hashedAt, id, createdAt);
    forall i | 0 < i < |r| ensures r[i].previousHash == r[i - 1].hash {
      if i < |log| {
        assert r[i] == r[..|log|][i] && r[i - 1] == r[..|log|][i - 1];
      } else {
        assert r[i - 1] == r[..|log|][i - 1];
      }
    }
    if |log| > 0 {
      assert r[0] == r[..|log|][0];
    }
  }

  /** The timestamp member rebuilt from the row: `ts.isoformat() if ts else None`. */
  function TimestampValue(t: Option<string>): Value {
    if t.Some? then Str(t.value) else Null
  }

  /** The record `verify_chain_integrity` rebuilds from a stored row. */
  function Reconstruct(e: Entry): Value {
    LogData(e.actorId, e.action, e.resourceType, e.resourceId, TimestampValue(e.createdAt), e.oldValues, e.newValues)
  }

  /** The hash recomputed for a row, chained to the row's own stored
      `previous_hash`. */
  function Expected(s: Signer, e: Entry): string {
    ComputeHash(s, e.previousHash, Reconstruct(e))
  }

  predicate Intact(s: Signer, e: Entry) {
    Expected(s, e) == e.hash
  }

  /** Records built from equivalent old and new values are equivalent. */
  lemma LogDataEquiv(actor: string, action: string, resourceType: string, resourceId: string,
                     timestamp: Value, old1: Value, new1: Value, old2: Value, new2: Value)
    requires JsonEquiv.Equiv(old1, old2) && JsonEquiv.Equiv(new1, new2)
    ensures JsonEquiv.Equiv(LogData(actor, action, resourceType, resourceId, timestamp, old1, new1),
                            LogData(actor, action, resourceType, resourceId, timestamp, old2, new2))
  {
    var d1 := LogData(actor, action, resourceType, resourceId, timestamp, old1, new1);
    var d2 := LogData(actor, action, resourceType, resourceId, timestamp, old2, new2);
    JsonEquiv.EquivReflexive(timestamp);
    forall i | 0 <= i < 6
      ensures JsonEquiv.MatchedIn(d1.members[i], d2.members) && JsonEquiv.MatchedBy(d1.members, d2.members[i])
    {
      assert d1.members[i].key == d2.members[i].key;
      assert JsonEquiv.Equiv(d1.members[i].value, d2.members[i].value);
    }
  }

  /** psycopg2 hands a JSONB column back as a dict whose members need not
      be in the order they were written in (JSONB keeps its own key order).
      The hash the verification recomputes does not depend on that order. */
  lemma ExpectedIgnoresColumnOrder(s: Signer, e: Entry, oldVal: Value, newVal: Value)
    requires WellFormed(e.oldValues) && WellFormed(e.newValues) && WellFormed(oldVal) && WellFormed(newVal)
    requires JsonEquiv.Equiv(e.oldValues, oldVal) && JsonEquiv.Equiv(e.newValues, newVal)
    ensures Expected(s, e.(oldValues := oldVal, newValues := newVal)) == Expected(s, e)
  {
    var e2 := e.(oldValues := oldVal, newValues := newVal);
    var ts := TimestampValue(e.createdAt);
    LogDataWellFormed(e.actorId, e.action, e.resourceType, e.resourceId, ts, e.oldValues, e.newValues);
    LogDataWellFormed(e.actorId, e.action, e.resourceType, e.resourceId, ts, oldVal, newVal);
    LogDataEquiv(e.actorId, e.action, e.resourceType, e.resourceId, ts, e.oldValues, e.newValues, oldVal, newVal);
    ComputeHashKeyOrderFree(s, e.previousHash, Reconstruct(e), Reconstruct(e2));
  }

  function BreakFor(s: Signer, e: Entry): Break {
    Break(e.id, Expected(s, e), e.hash)
  }

  /** What checking one row adds to the broken-link list. */
  function EntryBreaks(s: Signer, e: Entry): (r: seq<Break>)
    ensures |r| <= 1
    ensures Intact(s, e) <==> r == []
    ensures forall b :: b in r ==>
              b.id == e.id && b.expected == Expected(s, e) && b.found == e.hash && b.expected != b.found
  {
    if Intact(s, e) then [] else [BreakFor(s, e)]
  }

  function Check(s: Signer): Entry -> seq<Break> {
    e => EntryBreaks(s, e)
  }

  /** The broken-link list of a scan over `log`, in scan order. */
  function Breaks(s: Signer, log: Log): seq<Break> {
    Scan.Collect(Check(s), log)
  }

  /** Nothing is broken exactly when every row is intact. */
  lemma BreaksEmpty(s: Signer, log: Log)
    ensures Breaks(s, log) == [] <==> forall i :: 0 <= i < |log| ==> Intact(s, log[i])
  {
    Scan.CollectEmpty(Check(s), log);
    assert forall i :: 0 <= i < |log| ==> (Check(s)(log[i]) == [] <==> Intact(s, log[i]));
  }

  /** `verify_chain_integrity`: valid exactly when nothing is broken. */
  function Verify(s: Signer, log: Log): (r: (bool, seq<Break>))
    ensures |log| == 0 ==> r == (true, [])
    ensures r.0 <==> r.1 == []
    ensures r.1 == Breaks(s, log)
    ensures r.0 <==> forall i :: 0 <= i < |log| ==> Intact(s, log[i])
  {
    BreaksEmpty(s, log);
    if |log| == 0 then (true, [])
    else
      var broken := Breaks(s, log);
      (|broken| == 0, broken)
  }

  /** The scan as the source writes it, with the running `previous_hash`
      that is assigned on every row and never read. */
  method VerifyChainIntegrity(s: Signer, log: Log) returns (valid: bool, broken: seq<Break>)
    ensures (valid, broken) == Verify(s, log)
    ensures valid <==> forall i :: 0 <= i < |log| ==> Intact(s, log[i])
    ensures forall b :: b in broken <==> exists i :: 0 <= i < |log| && !Intact(s, log[i]) && b == BreakFor(s, log[i])
  {
    if |log| == 0 {
      return true, [];
    }
    broken := [];
    var previousHash := Genesis;
    var i := 0;
    while i < |log|
      invariant 0 <= i <= |log|
      invariant broken == Breaks(s, log[..i])
    {
      var e := log[i];
      var expected := ComputeHash(s, e.previousHash, Reconstruct(e));
      if expected != e.hash {
        broken := broken + [Break(e.id, expected, e.hash)];
      }
      previousHash := e.hash;
      assert log[..i + 1][..i] == log[..i];
      assert Check(s)(e) == (if expected != e.hash then [Break(e.id, expected, e.hash)] else []);
      i := i + 1;
    }
    assert log[..i] == log;
    valid := |broken| == 0;
    forall b ensures b in broken <==> exists i :: 0 <= i < |log| && !Intact(s, log[i]) && b == BreakFor(s, log[i]) {
      BreakReported(s, log, b);
    }
  }

  /** Scanning a concatenation is scanning each part in turn. */
  lemma BreaksSplit(s: Signer, a: Log, b: Log)
    ensures Breaks(s, a + b) == Breaks(s, a) + Breaks(s, b)
  {
    Scan.CollectSplit(Check(s), a, b);
  }

  /** A break is listed exactly for the rows whose recomputed hash differs
      from the stored one, and it carries that row's id and both hashes. */
  lemma BreakReported(s: Signer, log: Log, b: Break)
    ensures b in Breaks(s, log) <==>
              exists i :: 0 <= i < |log| && !Intact(s, log[i]) && b == BreakFor(s, log[i])
  {
    Scan.CollectMember(Check(s), log, b);
    assert forall i :: 0 <= i < |log| ==>
      (b in Check(s)(log[i]) <==> !Intact(s, log[i]) && b == BreakFor(s, log[i]));
  }

  /** At most one break per row. */
  lemma BreaksBounded(s: Signer, log: Log)
    ensures |Breaks(s, log)| <= |log|
  {
    assert forall e :: |Check(s)(e)| <= 1;
    Scan.CollectLength(Check(s), log);
  }

  /** Tamper locality: replacing row `k` by anything changes only row `k`'s
      contribution to the report, which sits between those of the rows
      before and after it; every other row is checked against its own
      stored fields alone. */
  lemma TamperLocality(s: Signer, log: Log, k: nat, e: Entry)
    requires k < |log|
    ensures Breaks(s, log[k := e]) == Breaks(s, log[..k]) + EntryBreaks(s, e) + Breaks(s, log[k + 1..])
    ensures Breaks(s, log) == Breaks(s, log[..k]) + EntryBreaks(s, log[k]) + Breaks(s, log[k + 1..])
  {
    var t := log[k := e];
    Scan.CollectAround(Check(s), log, k);
    Scan.CollectAround(Check(s), t, k);
    assert t[..k] == log[..k];
    assert t[k + 1..] == log[k + 1..];
  }

  /** On a chain that verified, tampering with one row is reported at that
      row only, and only if its recomputed hash no longer matches. */
  lemma TamperValidChain(s: Signer, log: Log, k: nat, e: Entry)
    requires Verify(s, log).0
    requires k < |log|
    ensures Verify(s, log[k := e]) == (Intact(s, e), EntryBreaks(s, e))
  {
    TamperLocality(s, log, k, e);
    var before, after := Breaks(s, log[..k]), Breaks(s, log[k + 1..]);
    assert before + EntryBreaks(s, log[k]) + after == [];
    assert |before| == 0 && |after| == 0;
    assert Breaks(s, log[k := e]) == EntryBreaks(s, e);
  }

  /** Overwriting one row's `new_values` in storage without touching its
      hash: if that changes the recomputed hash, the report is exactly one
      break, at that row, with the stored hash as `found`. */
  lemma TamperNewValues(s: Signer, log: Log, k: nat, v: Value)
    requires Verify(s, log).0
    requires k < |log|
    ensures var e := log[k].(newValues := v);
            Verify(s, log[k := e]) ==
              if Expected(s, e) == log[k].hash then (true, [])
              else (false, [Break(log[k].id, Expected(s, e), log[k].hash)])
  {
    TamperValidChain(s, log, k, log[k].(newValues := v));
  }

  /** Deleting a row from a chain that verified leaves a chain that
      verifies: each row is checked against its own `previous_hash`, so the
      gap is never seen. */
  lemma DeletionUndetected(s: Signer, log: Log, k: nat)
    requires Verify(s, log).0
    requires k < |log|
    ensures Verify(s, log[..k] + log[k + 1..]) == (true, [])
  {
    Scan.CollectAround(Check(s), log, k);
    BreaksSplit(s, log[..k], log[k + 1..]);
  }

  /** Appending to a chain that verified gives a chain whose report is
      that of the new row alone. */
  lemma AppendThenVerify(s: Signer, log: Log, c: Change, hashedAt: string, id: string, createdAt: string)
    requires Verify(s, log).0
    ensures var r := Append(s, log, c, hashedAt, id, createdAt);
            Verify(s, r) == (Intact(s, r[|log|]), EntryBreaks(s, r[|log|]))
  {
    var r := Append(s, log, c, hashedAt, id, createdAt);
    assert r == log + [r[|log|]];
    BreaksSplit(s, log, [r[|log|]]);
    Scan.CollectOne(Check(s), r[|log|]);
  }
}

=== FILE: corrected.dfy ===
/** An append and a scan that agree with each other. The append signs
    exactly the record the scan will rebuild (the row's own `created_at`,
    the values as the JSONB columns hold them), and the scan chains each
    row to the hash of the row scanned before it, the running
    `previous_hash`, rather than to the row's own stored copy. */
module Corrected {
  import opened Json
  import opened AuditChain
  import opened Optional
  import Scan
  import IsoClock
  import Divergence

  /** `log_change` signing what it stores: the timestamp is the one the row
      is inserted with, and falsy values are hashed as the NULL they are
      stored as. */
  function AppendRecorded(s: Signer, log: Log, c: Change, id: string, createdAt: string): (r: Log)
    ensures |r| == |log| + 1
    ensures r[..|log|] == log
    ensures r[|log|].previousHash == Tip(log)
    ensures r[|log|].oldValues == StoredValue(c.oldVal) && r[|log|].newValues == StoredValue(c.newVal)
    ensures r[|log|].id == id && r[|log|].createdAt == Some(createdAt)
    ensures r[|log|].actorId == c.actorId && r[|log|].action == c.action
    ensures r[|log|].resourceType == c.resourceType && r[|log|].resourceId == c.resourceId
    ensures Intact(s, r[|log|])
  {
    var previousHash := Tip(log);
    var data := LogData(c.actorId, c.action, c.resourceType, c.resourceId, Str(createdAt),
                        StoredValue(c.oldVal), StoredValue(c.newVal));
    log + [Entry(id, c.actorId, c.action, c.resourceType, c.resourceId,
                 StoredValue(c.oldVal), StoredValue(c.newVal),
                 previousHash, ComputeHash(s, previousHash, data), Some(createdAt))]
  }

  /** Appending what is stored keeps a chain valid, whatever the clocks and
      the values, and without any assumption on the mac. */
  lemma AppendRecordedKeepsValid(s: Signer, log: Log, c: Change, id: string, createdAt: string)
    requires Verify(s, log).0
    ensures Verify(s, AppendRecorded(s, log, c, id, createdAt)) == (true, [])
  {
    var r := AppendRecorded(s, log, c, id, createdAt);
    assert r == log + [r[|log|]];
    BreaksSplit(s, log, [r[|log|]]);
    Scan.CollectOne(Check(s), r[|log|]);
  }

  lemma AppendRecordedKeepsLinked(s: Signer, log: Log, c: Change, id: string, createdAt: string)
    requires Linked(log)
    ensures Linked(AppendRecorded(s, log, c, id, createdAt))
  {
    var r := AppendRecorded(s, log, c, id, createdAt);
    forall i | 0 < i < |r| ensures r[i].previousHash == r[i - 1].hash {
      if i < |log| {
        assert r[i] == r[..|log|][i] && r[i - 1] == r[..|log|][i - 1];
      } else {
        assert r[i - 1] == r[..|log|][i - 1];
      }
    }
    if |log| > 0 {
      assert r[0] == r[..|log|][0];
    }
  }

  /** The calls of `Divergence.Replay`, each appended with the corrected
      append; the Python clock is no longer read. */
  function ReplayRecorded(s: Signer, calls: seq<Divergence.Call>): (r: Log)
    requires Divergence.ValidClocks(calls)
    ensures |r| == |calls|
  {
    if |calls| == 0 then []
    else
      var last := calls[|calls| - 1];
      AppendRecorded(s, ReplayRecorded(s, calls[..|calls| - 1]), last.change, last.id,
                     IsoClock.IsoFormat(last.createdAt))
  }

  /** Whatever the clocks and the values, a log built by the corrected
      append is linked and passes both scans with nothing reported. */
  lemma {:induction false} ReplayRecordedAccepted(s: Signer, calls: seq<Divergence.Call>)
    requires Divergence.ValidClocks(calls)
    ensures Linked(ReplayRecorded(s, calls))
    ensures Verify(s, ReplayRecorded(s, calls)) == (true, [])
    ensures LinkedVerify(s, ReplayRecorded(s, calls)) == (true, [])
  {
    if |calls| > 0 {
      var n := |calls|;
      var init, last := calls[..n - 1], calls[n - 1];
      assert Divergence.ValidClocks(init) by {
        assert forall i :: 0 <= i < |init| ==> init[i] == calls[i];
      }
      ReplayRecordedAccepted(s, init);
      var log := ReplayRecorded(s, init);
      AppendRecordedKeepsValid(s, log, last.change, last.id, IsoClock.IsoFormat(last.createdAt));
      AppendRecordedKeepsLinked(s, log, last.change, last.id, IsoClock.IsoFormat(last.createdAt));
      LinkedVerifyAgrees(s, ReplayRecorded(s, calls));
    }
  }

  /** The running link before row `i` of a scan that started from
      `running`. */
  function LinkBefore(log: Log, running: string, i: nat): string
    requires i <= |log|
  {
    if i == 0 then running else log[i - 1].hash
  }

  /** The hash recomputed for a row chained to the running link. */
  function LinkedExpected(s: Signer, e: Entry, running: string): string {
    ComputeHash(s, running, Reconstruct(e))
  }

  function LinkedEntryBreaks(s: Signer, e: Entry, running: string): (r: seq<Break>)
    ensures |r| <= 1
    ensures r == [] <==> LinkedExpected(s, e, running) == e.hash
    ensures forall b :: b in r ==>
              b.id == e.id && b.expected == LinkedExpected(s, e, running) && b.found == e.hash
              && b.expected != b.found
  {
    if LinkedExpected(s, e, running) == e.hash then []
    else [Break(e.id, LinkedExpected(s, e, running), e.hash)]
  }

  /** The scan with `previous_hash = curr_hash` feeding the next row's
      check. */
  function LinkedBreaks(s: Signer, log: Log, running: string): seq<Break>
    decreases |log|
  {
    if |log| == 0 then []
    else LinkedEntryBreaks(s, log[0], running) + LinkedBreaks(s, log[1..], log[0].hash)
  }

  /** `verify_chain_integrity` with the running link put to use: the chain
      is accepted exactly when every row's hash is the mac of the link
      before it and its rebuilt record. */
  function LinkedVerify(s: Signer, log: Log): (r: (bool, seq<Break>))
    ensures |log| == 0 ==> r == (true, [])
    ensures r.0 <==> r.1 == []
    ensures r.0 <==>
              forall i :: 0 <= i < |log| ==> LinkedExpected(s, log[i], LinkBefore(log, Genesis, i)) == log[i].hash
  {
    LinkedBreaksEmpty(s, log, Genesis);
    if |log| == 0 then (true, [])
    else
      var broken := LinkedBreaks(s, log, Genesis);
      (|broken| == 0, broken)
  }

  /** Nothing is broken exactly when every row's hash is the mac of the
      running link and its rebuilt record. */
  lemma {:induction false} LinkedBreaksEmpty(s: Signer, log: Log, running: string)
    ensures LinkedBreaks(s, log, running) == [] <==>
              forall i :: 0 <= i < |log| ==> LinkedExpected(s, log[i], LinkBefore(log, running, i)) == log[i].hash
    decreases |log|
  {
    if |log| > 0 {
      var rest := log[1..];
      LinkedBreaksEmpty(s, rest, log[0].hash);
      forall i | 0 < i < |log|
        ensures LinkedExpected(s, log[i], LinkBefore(log, running, i))
                == LinkedExpected(s, rest[i - 1], LinkBefore(rest, log[0].hash, i - 1))
      {
        assert rest[i - 1] == log[i];
        if i > 1 {
          assert rest[i - 2] == log[i - 1];
        }
      }
    }
  }

  /** On a chain whose stored previous hashes are the actual links, the
      running link and the stored one coincide, and the corrected scan
      reports exactly what the scan as written reports. */
  lemma {:induction false} LinkedBreaksAgree(s: Signer, log: Log, running: string)
    requires |log| > 0 ==> log[0].previousHash == running
    requires forall i :: 0 < i < |log| ==> log[i].previousHash == log[i - 1].hash
    ensures LinkedBreaks(s, log, running) == Breaks(s, log)
    decreases |log|
  {
    if |log| > 0 {
      var rest := log[1..];
      forall i | 0 < i < |rest| ensures rest[i].previousHash == rest[i - 1].hash {
        assert rest[i] == log[i + 1] && rest[i - 1] == log[i];
      }
      LinkedBreaksAgree(s, rest, log[0].hash);
      assert log == [log[0]] + rest;
      BreaksSplit(s, [log[0]], rest);
      Scan.CollectOne(Check(s), log[0]);
    }
  }

  lemma LinkedVerifyAgrees(s: Signer, log: Log)
    requires Linked(log)
    ensures LinkedVerify(s, log) == Verify(s, log)
  {
    LinkedBreaksAgree(s, log, Genesis);
  }

  /** The running link after scanning `log` from `running`. */
  function LinkAfter(log: Log, running: string): string {
    if |log| == 0 then running else log[|log| - 1].hash
  }

  /** Scanning a concatenation: the second part starts from the link the
      first part ends with. */
  lemma {:induction false} LinkedBreaksSplit(s: Signer, a: Log, b: Log, running: string)
    ensures LinkedBreaks(s, a + b, running) == LinkedBreaks(s, a, running) + LinkedBreaks(s, b, LinkAfter(a, running))
    decreases |a|
  {
    if |a| == 0 {
      assert a + b == b;
    } else {
      var head := LinkedEntryBreaks(s, a[0], running);
      assert (a + b)[0] == a[0];
      assert (a + b)[1..] == a[1..] + b;
      assert LinkedBreaks(s, a + b, running) == head + LinkedBreaks(s, a[1..] + b, a[0].hash);
      LinkedBreaksSplit(s, a[1..], b, a[0].hash);
      assert LinkAfter(a[1..], a[0].hash) == LinkAfter(a, running);
    }
  }

  /** Tamper locality with the running link: rewriting row `k`'s payload
      while keeping its stored hash changes only row `k`'s contribution,
      because the next row is chained to the stored hash, not to a
      recomputed one. */
  lemma LinkedTamperLocality(s: Signer, log: Log, k: nat, e: Entry)
    requires k < |log|
    requires e.hash == log[k].hash
    ensures LinkedBreaks(s, log[k := e], Genesis)
            == LinkedBreaks(s, log[..k], Genesis) + LinkedEntryBreaks(s, e, LinkBefore(log, Genesis, k))
               + LinkedBreaks(s, log[k + 1..], log[k].hash)
    ensures LinkedBreaks(s, log, Genesis)
            == LinkedBreaks(s, log[..k], Genesis) + LinkedEntryBreaks(s, log[k], LinkBefore(log, Genesis, k))
               + LinkedBreaks(s, log[k + 1..], log[k].hash)
  {
    var t := log[k := e];
    assert t == log[..k] + ([e] + log[k + 1..]);
    assert log == log[..k] + ([log[k]] + log[k + 1..]);
    LinkedBreaksSplit(s, log[..k], [e] + log[k + 1..], Genesis);
    LinkedBreaksSplit(s, log[..k], [log[k]] + log[k + 1..], Genesis);
    assert LinkAfter(log[..k], Genesis) == LinkBefore(log, Genesis, k);
    assert ([e] + log[k + 1..])[1..] == log[k + 1..];
    assert ([log[k]] + log[k + 1..])[1..] == log[k + 1..];
  }

  /** Tampering on a chain the corrected scan accepts:
      overwriting one row's stored values without its hash is reported at
      that row only, or not at all if the recomputed hash still matches. */
  lemma LinkedTamperValidChain(s: Signer, log: Log, k: nat, e: Entry)
    requires LinkedVerify(s, log).0
    requires k < |log|
    requires e.hash == log[k].hash
    ensures LinkedBreaks(s, log[k := e], Genesis) == LinkedEntryBreaks(s, e, LinkBefore(log, Genesis, k))
  {
    LinkedTamperLocality(s, log, k, e);
    var before := LinkedBreaks(s, log[..k], Genesis);
    var after := LinkedBreaks(s, log[k + 1..], log[k].hash);
    assert before + LinkedEntryBreaks(s, log[k], LinkBefore(log, Genesis, k)) + after == [];
    assert |before| == 0 && |after| == 0;
  }

  /** No digest is the text the first row links to: an HMAC-SHA256 hex
      digest has no letter beyond `f`, and "genesis" has several. */
  ghost predicate NeverGenesis(s: Signer) {
    forall m :: s.mac(s.secret, m) != Genesis
  }

  /** The idealised signer is not a contradiction: prefixing the message
      with `#` is collision-free and never yields the genesis link. */
  lemma IdealSignerExists()
    ensures var s := Signer((k, m) => "#" + m, ""); Injective(s) && NeverGenesis(s)
  {
    var s := Signer((k: string, m: string) => "#" + m, "");
    forall m1, m2 | s.mac(s.secret, m1) == s.mac(s.secret, m2) ensures m1 == m2 {
      assert m1 == s.mac(s.secret, m1)[1..] && m2 == s.mac(s.secret, m2)[1..];
    }
    forall m ensures s.mac(s.secret, m) != Genesis {
      assert s.mac(s.secret, m)[0] != Genesis[0];
    }
  }

  /** What the `UNIQUE` constraint on the `hash` column guarantees. */
  predicate UniqueHashes(log: Log) {
    forall i, j :: 0 <= i < j < |log| ==> log[i].hash != log[j].hash
  }

  function Delete(log: Log, k: nat): (r: Log)
    requires k < |log|
    ensures |r| == |log| - 1
    ensures forall i :: 0 <= i < k ==> r[i] == log[i]
    ensures forall i :: k <= i < |r| ==> r[i] == log[i + 1]
  {
    log[..k] + log[k + 1..]
  }

  /** If the shortened chain verifies, the row that followed the deleted
      one was signed over the link that now precedes it. */
  lemma SuccessorLink(s: Signer, log: Log, k: nat)
    requires Injective(s)
    requires LinkedVerify(s, log).0
    requires k + 1 < |log|
    ensures LinkedVerify(s, Delete(log, k)).0 ==> LinkBefore(log, Genesis, k) == log[k].hash
  {
    var t := Delete(log, k);
    if LinkedVerify(s, t).0 {
      var e := log[k + 1];
      assert t[k] == e;
      assert LinkBefore(t, Genesis, k) == LinkBefore(log, Genesis, k);
      assert LinkedExpected(s, e, LinkBefore(t, Genesis, k)) == e.hash;
      assert LinkedExpected(s, e, LinkBefore(log, Genesis, k + 1)) == e.hash;
      assert LinkBefore(log, Genesis, k + 1) == log[k].hash;
      var m1 := HashMessage(LinkBefore(log, Genesis, k), Reconstruct(e));
      var m2 := HashMessage(log[k].hash, Reconstruct(e));
      assert s.mac(s.secret, m1) == s.mac(s.secret, m2);
      HashMessageDeterminesPrevious(LinkBefore(log, Genesis, k), log[k].hash, Reconstruct(e));
    }
  }

  /** Deleting any row but the newest from a chain the corrected scan
      accepts is reported: the next row no longer chains to its
      predecessor. */
  lemma DeletionDetected(s: Signer, log: Log, k: nat)
    requires Injective(s) && NeverGenesis(s)
    requires UniqueHashes(log)
    requires LinkedVerify(s, log).0
    requires k + 1 < |log|
    ensures !LinkedVerify(s, Delete(log, k)).0
  {
    if k == 0 {
      assert LinkedExpected(s, log[0], Genesis) == log[0].hash;
    } else {
      assert log[k - 1].hash != log[k].hash;
    }
    SuccessorLink(s, log, k);
  }

  /** The deletion that the scan as written misses, on a chain the
      corrected scan also accepts, is caught by the corrected scan. */
  lemma DeletionCaughtOnlyByLinkedScan(s: Signer, log: Log, k: nat)
    requires Injective(s) && NeverGenesis(s)
    requires Linked(log) && UniqueHashes(log)
    requires Verify(s, log).0
    requires k + 1 < |log|
    ensures Verify(s, Delete(log, k)).0
    ensures !LinkedVerify(s, Delete(log, k)).0
  {
    LinkedVerifyAgrees(s, log);
    DeletionUndetected(s, log, k);
    DeletionDetected(s, log, k);
  }
}

=== FILE: divergence.dfy ===
/** Where `log_change` and `verify_chain_integrity` disagree about what was
    hashed. The append signs a record stamped with the Python clock and
    holding the raw old/new values; the verification rebuilds the record
    from the row, with the database's `created_at` and the stored JSONB
    columns. Whenever the two records have different texts, a freshly
    appended row is reported as broken (for a collision-free mac). */
module Divergence {
  import opened Json
  import JsonText
  import opened AuditChain
  import RecordLayout
  import IsoClock

  /** Under a collision-free mac, a row whose stored hash was computed
      over `data` and its own previous hash verifies only if the record
      the verification rebuilds has the same text as `data`. */
  lemma IntactMeansSameText(s: Signer, e: Entry, data: Value)
    requires Injective(s)
    requires e.hash == ComputeHash(s, e.previousHash, data)
    ensures Intact(s, e) ==> Dumps(data) == Dumps(Reconstruct(e))
  {
    if Intact(s, e) {
      var m1, m2 := HashMessage(e.previousHash, data), HashMessage(e.previousHash, Reconstruct(e));
      assert s.mac(s.secret, m1) == s.mac(s.secret, m2);
      assert m1 == m2;
      RecordLayout.CancelLeft(e.previousHash + ":", Dumps(data), Dumps(Reconstruct(e)));
    }
  }

  /** The record rebuilt from a freshly appended row: the row's
      `created_at` as timestamp and the values as the columns hold them. */
  lemma AppendedReconstruct(s: Signer, log: Log, c: Change, hashedAt: string, id: string, createdAt: string)
    ensures var r := Append(s, log, c, hashedAt, id, createdAt);
            Reconstruct(r[|log|]) == LogData(c.actorId, c.action, c.resourceType, c.resourceId,
                                             Str(createdAt), StoredValue(c.oldVal), StoredValue(c.newVal))
  {
  }

  /** Records stamped with timestamps that need no escaping have the same
      text only if the timestamps are equal, whatever old and new values
      each holds. */
  lemma SameTextSameClock(c: Change, hashedAt: string, createdAt: string)
    requires JsonText.PlainText(hashedAt) && JsonText.PlainText(createdAt)
    ensures Dumps(LogData(c.actorId, c.action, c.resourceType, c.resourceId, Str(hashedAt), c.oldVal, c.newVal))
            == Dumps(LogData(c.actorId, c.action, c.resourceType, c.resourceId, Str(createdAt),
                             StoredValue(c.oldVal), StoredValue(c.newVal)))
            ==> hashedAt == createdAt
  {
    RecordLayout.CanonicalRecordLayout(c.actorId, c.action, c.resourceType, c.resourceId, Str(hashedAt), c.oldVal, c.newVal);
    RecordLayout.CanonicalRecordLayout(c.actorId, c.action, c.resourceType, c.resourceId, Str(createdAt),
                                       StoredValue(c.oldVal), StoredValue(c.newVal));
    RecordLayout.TimestampFromRecord(c.actorId, c.action, c.resourceType, c.resourceId,
                                     hashedAt, c.oldVal, c.newVal,
                                     createdAt, StoredValue(c.oldVal), StoredValue(c.newVal));
  }

  /** The clock finding: the append hashes `datetime.utcnow().isoformat()`
      while the verification hashes the row's `created_at`. When the two
      texts differ, the row just appended is reported as broken, and so is
      the whole chain, whatever values the change carries. */
  lemma ClockMismatchBreaks(s: Signer, log: Log, c: Change, hashedAt: string, id: string, createdAt: string)
    requires Injective(s)
    requires JsonText.PlainText(hashedAt) && JsonText.PlainText(createdAt)
    requires hashedAt != createdAt
    ensures var r := Append(s, log, c, hashedAt, id, createdAt);
            !Intact(s, r[|log|]) && !Verify(s, r).0
  {
    var r := Append(s, log, c, hashedAt, id, createdAt);
    var data := LogData(c.actorId, c.action, c.resourceType, c.resourceId, Str(hashedAt), c.oldVal, c.newVal);
    AppendedReconstruct(s, log, c, hashedAt, id, createdAt);
    IntactMeansSameText(s, r[|log|], data);
    SameTextSameClock(c, hashedAt, createdAt);
  }

  /** One `log_change` call: the change, the reading of the Python clock,
      and the id and `created_at` the database gives the new row. */
  datatype Call = Call(change: Change, now: IsoClock.DateTime, id: string, createdAt: IsoClock.DateTime)

  predicate ValidClocks(calls: seq<Call>) {
    forall i :: 0 <= i < |calls| ==> IsoClock.Valid(calls[i].now) && IsoClock.Valid(calls[i].createdAt)
  }

  /** The clocks as the code reads them: `datetime.utcnow()` is naive,
      while a `TIMESTAMP WITH TIME ZONE` value read back carries its UTC
      offset. */
  predicate RealClocks(calls: seq<Call>) {
    && ValidClocks(calls)
    && forall i :: 0 <= i < |calls| ==> calls[i].now.offset.None? && calls[i].createdAt.offset.Some?
  }

  /** One call of `log_change` on the log it finds. */
  function Step(s: Signer, log: Log, call: Call): Log
    requires IsoClock.Valid(call.now) && IsoClock.Valid(call.createdAt)
  {
    Append(s, log, call.change, IsoClock.IsoFormat(call.now), call.id, IsoClock.IsoFormat(call.createdAt))
  }

  /** The log that a sequence of `log_change` calls builds from an empty
      table. */
  function Replay(s: Signer, calls: seq<Call>): (r: Log)
    requires ValidClocks(calls)
    ensures |r| == |calls|
  {
    if |calls| == 0 then [] else Step(s, Replay(s, calls[..|calls| - 1]), calls[|calls| - 1])
  }

  /** A row appended with a naive clock and an aware `created_at` is
      broken, and the rows before it are untouched. */
  lemma StepBreaks(s: Signer, log: Log, call: Call)
    requires Injective(s)
    requires IsoClock.Valid(call.now) && IsoClock.Valid(call.createdAt)
    requires call.now.offset.None? && call.createdAt.offset.Some?
    ensures var r := Step(s, log, call); |r| == |log| + 1 && r[..|log|] == log && !Intact(s, r[|log|])
  {
    IsoClock.IsoFormatPlain(call.now);
    IsoClock.IsoFormatPlain(call.createdAt);
    IsoClock.NaiveNeverAware(call.now, call.createdAt);
    ClockMismatchBreaks(s, log, call.change, IsoClock.IsoFormat(call.now), call.id, IsoClock.IsoFormat(call.createdAt));
  }

  predicate AllBroken(s: Signer, log: Log) {
    forall i :: 0 <= i < |log| ==> !Intact(s, log[i])
  }

  /** The clock finding in full: with a naive Python clock and an aware
      `created_at`, every row `log_change` ever wrote is reported as
      broken, so a non-empty audit log never verifies. */
  lemma {:induction false} EveryRowBreaks(s: Signer, calls: seq<Call>)
    requires Injective(s)
    requires RealClocks(calls)
    ensures AllBroken(s, Replay(s, calls))
    ensures |calls| > 0 ==> !Verify(s, Replay(s, calls)).0
  {
    if |calls| > 0 {
      var n := |calls|;
      var init, last := calls[..n - 1], calls[n - 1];
      assert RealClocks(init) by {
        assert forall i :: 0 <= i < |init| ==> init[i] == calls[i];
      }
      EveryRowBreaks(s, init);
      var log := Replay(s, init);
      StepBreaks(s, log, last);
      var r := Replay(s, calls);
      assert r == Step(s, log, last);
      forall i | 0 <= i < n ensures !Intact(s, r[i]) {
        if i < n - 1 {
          assert r[i] == r[..n - 1][i];
        }
      }
      assert !Intact(s, r[n - 1]);
    }
  }

  /** A falsy value other than None (`{}`, `[]`, `""`, `0`, `False`) has a
      text of one, two or five characters, so a different length than the
      `null` stored in its place. */
  lemma FalsyTextLength(v: Value)
    requires !Truthy(v) && v != Null
    ensures |Dumps(v)| == 1 || |Dumps(v)| == 2 || |Dumps(v)| == 5
    ensures |Dumps(v)| != |Dumps(StoredValue(v))|
  {
    match v
    case Bool(_) =>
    case Int(_) =>
      assert JsonText.IntToString(0) == JsonText.NatToString(0) == "0";
    case Str(_) =>
      assert JsonText.Quote("") == "\"\"";
    case Arr(_) =>
      assert Dumps(v) == "[]";
    case Obj(_) =>
      assert Dumps(v) == "{}";
  }

  /** Storing a value changes its text only when it is falsy and not None. */
  lemma StoredTextLength(v: Value)
    ensures !Truthy(v) && v != Null <==> |Dumps(v)| != |Dumps(StoredValue(v))|
  {
    if !Truthy(v) && v != Null {
      FalsyTextLength(v);
    }
  }

  /** The falsy-value finding: an empty dict (or any other falsy value but
      None) passed as the old or new value is hashed as itself but stored
      as NULL, so verification rebuilds `null` in its place, and the row
      just appended is reported as broken even when both clocks agree. With
      both values falsy the two texts take one, two or five characters each
      and never add up to the eight of `null` twice. */
  lemma FalsyValueBreaks(s: Signer, log: Log, c: Change, at: string, id: string)
    requires Injective(s)
    requires (!Truthy(c.oldVal) && c.oldVal != Null) || (!Truthy(c.newVal) && c.newVal != Null)
    ensures var r := Append(s, log, c, at, id, at);
            !Intact(s, r[|log|]) && !Verify(s, r).0
  {
    var r := Append(s, log, c, at, id, at);
    var data := LogData(c.actorId, c.action, c.resourceType, c.resourceId, Str(at), c.oldVal, c.newVal);
    var stored := LogData(c.actorId, c.action, c.resourceType, c.resourceId, Str(at),
                          StoredValue(c.oldVal), StoredValue(c.newVal));
    AppendedReconstruct(s, log, c, at, id, at);
    IntactMeansSameText(s, r[|log|], data);
    RecordLayout.CanonicalRecordLayout(c.actorId, c.action, c.resourceType, c.resourceId, Str(at), c.oldVal, c.newVal);
    RecordLayout.CanonicalRecordLayout(c.actorId, c.action, c.resourceType, c.resourceId, Str(at),
                                       StoredValue(c.oldVal), StoredValue(c.newVal));
    StoredPairLength(c.oldVal, c.newVal);
    RecordLayout.RecordLengthDiffers(c.actorId, c.action, c.resourceType, c.resourceId, Str(at),
                                     c.oldVal, c.newVal, StoredValue(c.oldVal), StoredValue(c.newVal));
  }

  /** Storing an old and a new value of which at least one is falsy and not
      None changes their combined text length. */
  lemma StoredPairLength(a: Value, b: Value)
    requires (!Truthy(a) && a != Null) || (!Truthy(b) && b != Null)
    ensures |Dumps(a)| + |Dumps(b)| != |Dumps(StoredValue(a))| + |Dumps(StoredValue(b))|
  {
    StoredTextLength(a);
    StoredTextLength(b);
    if (!Truthy(a) && a != Null) && (!Truthy(b) && b != Null) {
      FalsyTextLength(a);
      FalsyTextLength(b);
      assert Dumps(StoredValue(a)) == Dumps(StoredValue(b)) == "null";
    }
  }

  /** A concrete instance: `log_change(..., old_val={})` on any log, with
      any two clock texts: if they differ the clock finding breaks the row,
      and if they agree the empty dict does. */
  lemma EmptyDictBreaks(s: Signer, log: Log, actorId: string, resourceType: string, resourceId: string,
                        newVal: Value, hashedAt: string, id: string, createdAt: string)
    requires Injective(s)
    requires JsonText.PlainText(hashedAt) && JsonText.PlainText(createdAt)
    ensures var r := Append(s, log, Change(actorId, "UPDATE", resourceType, resourceId, Obj([]), newVal),
                            hashedAt, id, createdAt);
            !Intact(s, r[|log|]) && !Verify(s, r).0
  {
    var c := Change(actorId, "UPDATE", resourceType, resourceId, Obj([]), newVal);
    if hashedAt != createdAt {
      ClockMismatchBreaks(s, log, c, hashedAt, id, createdAt);
    } else {
      FalsyValueBreaks(s, log, c, hashedAt, id);
    }
  }
}

=== FILE: history.dfy ===
/** `get_resource_history`: the rows of one resource, newest first, at most
    `limit` of them, each reduced to the six fields the query selects. */
module History {
  import opened Json
  import opened AuditChain
  import opened Optional

  /** The `limit` a caller gets by not passing one. */
  const DefaultLimit := 100

  /** One element of the returned list. `timestamp` is `created_at`. */
  datatype HistoryRecord = HistoryRecord(
    timestamp: Option<string>,
    action: string,
    actor: string,
    oldValues: Value,
    newValues: Value,
    hash: string)

  /** The query either returns its rows or is refused by the database. */
  datatype Outcome<T> = Ok(value: T) | Refused(reason: string)

  /** `WHERE resource_type = %s AND resource_id = %s`. */
  predicate Matches(e: Entry, resourceType: string, resourceId: string) {
    e.resourceType == resourceType && e.resourceId == resourceId
  }

  function ToRecord(e: Entry): HistoryRecord {
    HistoryRecord(e.createdAt, e.action, e.actorId, e.oldValues, e.newValues, e.hash)
  }

  /** Every record of the resource, newest first (`ORDER BY created_at DESC`
      on a log kept in `created_at` order). */
  function Records(log: Log, resourceType: string, resourceId: string): seq<HistoryRecord>
    decreases |log|
  {
    if |log| == 0 then []
    else
      var e := log[|log| - 1];
      (if Matches(e, resourceType, resourceId) then [ToRecord(e)] else [])
      + Records(log[..|log| - 1], resourceType, resourceId)
  }

  /** The positions in the log the records come from, in the same order. */
  function Origins(log: Log, resourceType: string, resourceId: string): seq<nat>
    decreases |log|
  {
    if |log| == 0 then []
    else
      var e := log[|log| - 1];
      (if Matches(e, resourceType, resourceId) then [|log| - 1] else [])
      + Origins(log[..|log| - 1], resourceType, resourceId)
  }

  /** The reference definition: filter, newest first, then `LIMIT`. A
      negative limit is an error in PostgreSQL; `None` is `LIMIT NULL`,
      which returns every row. */
  function HistorySpec(log: Log, resourceType: string, resourceId: string, limit: Option<int>)
    : Outcome<seq<HistoryRecord>>
  {
    var all := Records(log, resourceType, resourceId);
    if limit.None? then Ok(all)
    else if limit.value < 0 then Refused("LIMIT must not be negative")
    else if limit.value < |all| then Ok(all[..limit.value])
    else Ok(all)
  }

  /** What one row contributes to the history of a resource. */
  function RecordOf(e: Entry, resourceType: string, resourceId: string): seq<HistoryRecord> {
    if Matches(e, resourceType, resourceId) then [ToRecord(e)] else []
  }

  lemma RecordsSnoc(log: Log, e: Entry, resourceType: string, resourceId: string)
    ensures Records(log + [e], resourceType, resourceId)
            == RecordOf(e, resourceType, resourceId) + Records(log, resourceType, resourceId)
  {
    assert (log + [e])[..|log|] == log;
  }

  /** The records of a log, its newest part first. */
  lemma {:induction false} RecordsSplit(a: Log, b: Log, resourceType: string, resourceId: string)
    ensures Records(a + b, resourceType, resourceId)
            == Records(b, resourceType, resourceId) + Records(a, resourceType, resourceId)
    decreases |b|
  {
    if |b| == 0 {
      assert a + b == a;
    } else {
      var b', last := b[..|b| - 1], b[|b| - 1];
      assert a + b == (a + b') + [last];
      assert b == b' + [last];
      RecordsSnoc(a + b', last, resourceType, resourceId);
      RecordsSnoc(b', last, resourceType, resourceId);
      RecordsSplit(a, b', resourceType, resourceId);
    }
  }

  lemma RecordsCons(e: Entry, rest: Log, resourceType: string, resourceId: string)
    ensures Records([e] + rest, resourceType, resourceId)
            == Records(rest, resourceType, resourceId) + RecordOf(e, resourceType, resourceId)
  {
    RecordsSplit([e], rest, resourceType, resourceId);
    RecordsSnoc([], e, resourceType, resourceId);
    assert [] + [e] == [e];
  }

  lemma {:induction false} OriginsLength(log: Log, resourceType: string, resourceId: string)
    ensures |Origins(log, resourceType, resourceId)| == |Records(log, resourceType, resourceId)|
    decreases |log|
  {
    if |log| > 0 {
      OriginsLength(log[..|log| - 1], resourceType, resourceId);
    }
  }

  /** Each record is made from the matching row at its origin. */
  lemma {:induction false} OriginsSound(log: Log, resourceType: string, resourceId: string)
    ensures var rs, os := Records(log, resourceType, resourceId), Origins(log, resourceType, resourceId);
            forall j :: 0 <= j < |os| ==>
              && os[j] < |log| && j < |rs|
              && Matches(log[os[j]], resourceType, resourceId) && rs[j] == ToRecord(log[os[j]])
    decreases |log|
  {
    if |log| > 0 {
      var init := log[..|log| - 1];
      OriginsSound(init, resourceType, resourceId);
      OriginsLength(init, resourceType, resourceId);
      var rs, os := Records(log, resourceType, resourceId), Origins(log, resourceType, resourceId);
      var rs', os' := Records(init, resourceType, resourceId), Origins(init, resourceType, resourceId);
      var k := if Matches(log[|log| - 1], resourceType, resourceId) then 1 else 0;
      assert |os| == |os'| + k && |rs| == |rs'| + k;
      forall j | k <= j < |os|
        ensures os[j] == os'[j - k] && rs[j] == rs'[j - k] && log[os[j]] == init[os'[j - k]]
      {
      }
    }
  }

  predicate AllBelow(os: seq<nat>, n: nat) {
    forall j :: 0 <= j < |os| ==> os[j] < n
  }

  predicate Decreasing(os: seq<nat>) {
    forall j1, j2 :: 0 <= j1 < j2 < |os| ==> os[j1] > os[j2]
  }

  /** Every origin is a position of the log. */
  lemma {:induction false} OriginsBelow(log: Log, resourceType: string, resourceId: string)
    ensures AllBelow(Origins(log, resourceType, resourceId), |log|)
    decreases |log|
  {
    if |log| > 0 {
      var init := log[..|log| - 1];
      OriginsBelow(init, resourceType, resourceId);
      var os, os' := Origins(log, resourceType, resourceId), Origins(init, resourceType, resourceId);
      var k := if Matches(log[|log| - 1], resourceType, resourceId) then 1 else 0;
      assert |os| == |os'| + k;
      forall j | k <= j < |os| ensures os[j] < |log| {
        assert os[j] == os'[j - k];
      }
    }
  }

  /** Newest first: origins strictly decrease. */
  lemma {:induction false} OriginsDescending(log: Log, resourceType: string, resourceId: string)
    ensures Decreasing(Origins(log, resourceType, resourceId))
    decreases |log|
  {
    if |log| > 0 {
      var init := log[..|log| - 1];
      OriginsDescending(init, resourceType, resourceId);
      OriginsBelow(init, resourceType, resourceId);
      var os, os' := Origins(log, resourceType, resourceId), Origins(init, resourceType, resourceId);
      if Matches(log[|log| - 1], resourceType, resourceId) {
        assert os == [|log| - 1] + os';
        forall j1, j2 | 0 <= j1 < j2 < |os| ensures os[j1] > os[j2] {
          assert os[j2] == os'[j2 - 1];
          if j1 > 0 {
            assert os[j1] == os'[j1 - 1];
          }
        }
      } else {
        assert os == os';
      }
    }
  }

  /** Every matching row is the origin of some record. */
  lemma {:induction false} OriginsComplete(log: Log, resourceType: string, resourceId: string)
    ensures forall i :: 0 <= i < |log| && Matches(log[i], resourceType, resourceId) ==>
              i in Origins(log, resourceType, resourceId)
    decreases |log|
  {
    if |log| > 0 {
      var init := log[..|log| - 1];
      OriginsComplete(init, resourceType, resourceId);
      assert forall i :: 0 <= i < |init| ==> init[i] == log[i];
    }
  }

  /** What the origins say about the records: one position per record,
      strictly decreasing (newest first), each a matching row that the
      record was made from, and every matching row among them. */
  lemma OriginsDescribeRecords(log: Log, resourceType: string, resourceId: string)
    ensures var rs, os := Records(log, resourceType, resourceId), Origins(log, resourceType, resourceId);
            && |os| == |rs|
            && (forall j :: 0 <= j < |os| ==> os[j] < |log|)
            && (forall j :: 0 <= j < |os| ==> Matches(log[os[j]], resourceType, resourceId) && rs[j] == ToRecord(log[os[j]]))
            && (forall j1, j2 :: 0 <= j1 < j2 < |os| ==> os[j1] > os[j2])
            && (forall i :: 0 <= i < |log| && Matches(log[i], resourceType, resourceId) ==> i in os)
  {
    OriginsLength(log, resourceType, resourceId);
    OriginsSound(log, resourceType, resourceId);
    OriginsBelow(log, resourceType, resourceId);
    OriginsDescending(log, resourceType, resourceId);
    OriginsComplete(log, resourceType, resourceId);
  }

  /** A record is returned (with no limit) exactly when some row of the
      resource produced it. */
  lemma RecordsMembership(log: Log, resourceType: string, resourceId: string, r: HistoryRecord)
    ensures r in Records(log, resourceType, resourceId) <==>
              exists i :: 0 <= i < |log| && Matches(log[i], resourceType, resourceId) && r == ToRecord(log[i])
  {
    OriginsDescribeRecords(log, resourceType, resourceId);
    var rs, os := Records(log, resourceType, resourceId), Origins(log, resourceType, resourceId);
    if r in rs {
      var j :| 0 <= j < |rs| && rs[j] == r;
      assert Matches(log[os[j]], resourceType, resourceId) && r == ToRecord(log[os[j]]);
    }
    if exists i :: 0 <= i < |log| && Matches(log[i], resourceType, resourceId) && r == ToRecord(log[i]) {
      var i :| 0 <= i < |log| && Matches(log[i], resourceType, resourceId) && r == ToRecord(log[i]);
      assert i in os;
      var j :| 0 <= j < |os| && os[j] == i;
      assert rs[j] == r;
    }
  }

  /** `get_resource_history` as a backward scan from the newest row that
      stops as soon as `limit` records are collected. */
  method GetResourceHistory(log: Log, resourceType: string, resourceId: string, limit: Option<int>)
    returns (r: Outcome<seq<HistoryRecord>>)
    ensures r == HistorySpec(log, resourceType, resourceId, limit)
    ensures r.Refused? <==> limit.Some? && limit.value < 0
    ensures r.Ok? && limit.Some? ==> |r.value| <= limit.value
    ensures r.Ok? ==> forall j :: 0 <= j < |r.value| ==> r.value[j] in Records(log, resourceType, resourceId)
  {
    if limit.Some? && limit.value < 0 {
      return Refused("LIMIT must not be negative");
    }
    var results: seq<HistoryRecord> := [];
    var i := |log|;
    while i > 0 && (limit.None? || |results| < limit.value)
      invariant 0 <= i <= |log|
      invariant results == Records(log[i..], resourceType, resourceId)
      invariant limit.Some? ==> |results| <= limit.value
    {
      var e := log[i - 1];
      if Matches(e, resourceType, resourceId) {
        results := results + [ToRecord(e)];
      }
      assert log[i - 1..] == [e] + log[i..];
      RecordsCons(e, log[i..], resourceType, resourceId);
      i := i - 1;
    }
    assert log == log[..i] + log[i..];
    RecordsSplit(log[..i], log[i..], resourceType, resourceId);
    var all := Records(log, resourceType, resourceId);
    assert all == results + Records(log[..i], resourceType, resourceId);
    if i == 0 {
      assert log[..i] == [];
      assert all == results;
    } else {
      assert limit.Some? && |results| == limit.value;
      assert all[..|results|] == results;
      assert |all| == |results| ==> all == results;
    }
    r := Ok(results);
  }

  /** Newest first: a row appended for the resource heads its history, and
      the rest is the previous history shortened by one. */
  lemma AppendHeadsHistory(log: Log, e: Entry, resourceType: string, resourceId: string, n: nat)
    requires Matches(e, resourceType, resourceId)
    requires n > 0
    ensures HistorySpec(log + [e], resourceType, resourceId, Some(n))
            == Ok([ToRecord(e)] + HistorySpec(log, resourceType, resourceId, Some(n - 1)).value)
  {
    RecordsSnoc(log, e, resourceType, resourceId);
    var all := Records(log, resourceType, resourceId);
    if n - 1 < |all| {
      assert ([ToRecord(e)] + all)[..n] == [ToRecord(e)] + all[..n - 1];
    }
  }

  /** A row appended for another resource leaves the history unchanged. */
  lemma AppendOtherKeepsHistory(log: Log, e: Entry, resourceType: string, resourceId: string, limit: Option<int>)
    requires !Matches(e, resourceType, resourceId)
    ensures HistorySpec(log + [e], resourceType, resourceId, limit) == HistorySpec(log, resourceType, resourceId, limit)
  {
    RecordsSnoc(log, e, resourceType, resourceId);
    assert RecordOf(e, resourceType, resourceId) == [];
    assert Records(log + [e], resourceType, resourceId) == Records(log, resourceType, resourceId);
  }

  /** What `log_change` writes is at the head of the resource's history. */
  lemma LoggedChangeHeadsHistory(s: Signer, log: Log, c: Change, hashedAt: string, id: string, createdAt: string)
    ensures var r := Append(s, log, c, hashedAt, id, createdAt);
            var h := HistorySpec(r, c.resourceType, c.resourceId, Some(DefaultLimit));
            h.Ok? && |h.value| > 0 && h.value[0] == ToRecord(r[|log|])
  {
    var r := Append(s, log, c, hashedAt, id, createdAt);
    assert r == log + [r[|log|]];
    AppendHeadsHistory(log, r[|log|], c.resourceType, c.resourceId, DefaultLimit);
  }
}

=== FILE: iso_clock.dfy ===
/** `datetime.isoformat()` with its default `T` separator and precision: the
    text both timestamps of a record are made of. The appended record uses
    a naive `datetime.utcnow()`; the rebuilt record uses the `created_at`
    value read from a `TIMESTAMP WITH TIME ZONE` column, which carries the
    session's UTC offset. */
module IsoClock {
  import JsonText
  import opened Optional

  /** A `datetime`; `offset` is `utcoffset()` in minutes for an aware
      value and None for a naive one. */
  datatype DateTime = DateTime(year: nat, month: nat, day: nat,
                               hour: nat, minute: nat, second: nat, microsecond: nat,
                               offset: Option<int>)

  /** The ranges `datetime` enforces on its fields (days are bounded by
      31 whatever the month, which the text does not depend on). */
  predicate Valid(d: DateTime) {
    && 1 <= d.year <= 9999 && 1 <= d.month <= 12 && 1 <= d.day <= 31
    && d.hour < 24 && d.minute < 60 && d.second < 60 && d.microsecond < 1_000_000
    && (d.offset.Some? ==> -1440 < d.offset.value < 1440)
  }

  /** `'%0*d' % (k, n)` for `n < 10^k`: the last `k` decimal digits. */
  function DecText(n: nat, k: nat): (r: string)
    ensures |r| == k
  {
    if k == 0 then [] else DecText(n / 10, k - 1) + [JsonText.Digits[n % 10]]
  }

  /** The `+HH:MM` suffix of an aware value: the sign, then hours and
      minutes of the absolute offset. */
  function OffsetText(o: int): (r: string)
    requires -1440 < o < 1440
    ensures |r| == 6
  {
    var a := Abs(o);
    (if o < 0 then "-" else "+") + (DecText(a / 60, 2) + (":" + DecText(a % 60, 2)))
  }

  function Abs(o: int): nat {
    if o < 0 then -o else o
  }

  /** Hours and minutes determine the minutes. */
  lemma HoursMinutes(a: nat, b: nat)
    requires a / 60 == b / 60 && a % 60 == b % 60
    ensures a == b
  {
    assert a == a / 60 * 60 + a % 60 && b == b / 60 * 60 + b % 60;
  }

  /** `YYYY-MM-DD`. */
  function DatePart(d: DateTime): (r: string)
    ensures |r| == 10
  {
    DecText(d.year, 4) + ("-" + (DecText(d.month, 2) + ("-" + DecText(d.day, 2))))
  }

  /** `THH:MM:SS`. */
  function TimePart(d: DateTime): (r: string)
    ensures |r| == 9
  {
    "T" + (DecText(d.hour, 2) + (":" + (DecText(d.minute, 2) + (":" + DecText(d.second, 2)))))
  }

  /** `.ffffff`, written only when there are microseconds. */
  function FractionPart(d: DateTime): (r: string)
    ensures |r| == if d.microsecond != 0 then 7 else 0
  {
    if d.microsecond != 0 then "." + DecText(d.microsecond, 6) else ""
  }

  /** `+HH:MM`, written only for an aware value. */
  function ZonePart(d: DateTime): (r: string)
    requires Valid(d)
    ensures |r| == if d.offset.Some? then 6 else 0
  {
    if d.offset.Some? then OffsetText(d.offset.value) else ""
  }

  /** `d.isoformat()`: date, `T`, time, then the fraction only when there
      are microseconds and the offset only when the value is aware. */
  function IsoFormat(d: DateTime): (r: string)
    requires Valid(d)
    ensures |r| == 19 + (if d.microsecond != 0 then 7 else 0) + (if d.offset.Some? then 6 else 0)
  {
    DatePart(d) + (TimePart(d) + (FractionPart(d) + ZonePart(d)))
  }

  function Pow10(k: nat): nat {
    if k == 0 then 1 else 10 * Pow10(k - 1)
  }

  /** Reading `k` digits back gives any number below `10^k`. */
  lemma {:induction false} DecTextRoundTrip(n: nat, k: nat)
    requires n < Pow10(k)
    ensures JsonText.ParseDigits(DecText(n, k)) == n
  {
    if k > 0 {
      var t := DecText(n, k);
      assert t[..k - 1] == DecText(n / 10, k - 1);
      DecTextRoundTrip(n / 10, k - 1);
      JsonText.DigitOf(n % 10);
    }
  }

  lemma DecTextInjective(m: nat, n: nat, k: nat)
    requires m < Pow10(k) && n < Pow10(k)
    ensures DecText(m, k) == DecText(n, k) ==> m == n
  {
    DecTextRoundTrip(m, k);
    DecTextRoundTrip(n, k);
  }

  /** Every character of a fixed-width number is a digit. */
  lemma {:induction false} DecTextPlain(n: nat, k: nat)
    ensures JsonText.PlainText(DecText(n, k))
  {
    if k > 0 {
      DecTextPlain(n / 10, k - 1);
      var t := DecText(n, k);
      assert forall i :: 0 <= i < k - 1 ==> t[i] == DecText(n / 10, k - 1)[i];
      assert JsonText.Plain(JsonText.Digits[n % 10]);
    }
  }

  lemma PlainConcat(a: string, b: string)
    requires JsonText.PlainText(a) && JsonText.PlainText(b)
    ensures JsonText.PlainText(a + b)
  {
    assert forall i :: 0 <= i < |a + b| ==> (a + b)[i] == if i < |a| then a[i] else b[i - |a|];
  }

  lemma OffsetTextPlain(o: int)
    requires -1440 < o < 1440
    ensures JsonText.PlainText(OffsetText(o))
  {
    var a := Abs(o);
    var sign := if o < 0 then "-" else "+";
    DecTextPlain(a / 60, 2);
    DecTextPlain(a % 60, 2);
    assert JsonText.PlainText(sign) && JsonText.PlainText(":");
    PlainConcat(":", DecText(a % 60, 2));
    PlainConcat(DecText(a / 60, 2), ":" + DecText(a % 60, 2));
    PlainConcat(sign, DecText(a / 60, 2) + (":" + DecText(a % 60, 2)));
  }

  /** An ISO timestamp needs no escaping in JSON: it is digits, `-`, `T`,
      `:`, `.` and `+` only. */
  lemma IsoFormatPlain(d: DateTime)
    requires Valid(d)
    ensures JsonText.PlainText(IsoFormat(d))
  {
    DatePlain(d);
    TimePlain(d);
    if d.microsecond != 0 {
      DecTextPlain(d.microsecond, 6);
      PlainConcat(".", DecText(d.microsecond, 6));
    }
    if d.offset.Some? {
      OffsetTextPlain(d.offset.value);
    }
    PlainConcat(FractionPart(d), ZonePart(d));
    PlainConcat(TimePart(d), FractionPart(d) + ZonePart(d));
    PlainConcat(DatePart(d), TimePart(d) + (FractionPart(d) + ZonePart(d)));
  }

  lemma DatePlain(d: DateTime)
    ensures JsonText.PlainText(DatePart(d))
  {
    DecTextPlain(d.year, 4);
    DecTextPlain(d.month, 2);
    DecTextPlain(d.day, 2);
    PlainConcat("-", DecText(d.day, 2));
    PlainConcat(DecText(d.month, 2), "-" + DecText(d.day, 2));
    PlainConcat("-", DecText(d.month, 2) + ("-" + DecText(d.day, 2)));
    PlainConcat(DecText(d.year, 4), "-" + (DecText(d.month, 2) + ("-" + DecText(d.day, 2))));
  }

  lemma TimePlain(d: DateTime)
    ensures JsonText.PlainText(TimePart(d))
  {
    DecTextPlain(d.hour, 2);
    DecTextPlain(d.minute, 2);
    DecTextPlain(d.second, 2);
    PlainConcat(":", DecText(d.second, 2));
    PlainConcat(DecText(d.minute, 2), ":" + DecText(d.second, 2));
    PlainConcat(":", DecText(d.minute, 2) + (":" + DecText(d.second, 2)));
    PlainConcat(DecText(d.hour, 2), ":" + (DecText(d.minute, 2) + (":" + DecText(d.second, 2))));
    PlainConcat("T", DecText(d.hour, 2) + (":" + (DecText(d.minute, 2) + (":" + DecText(d.second, 2)))));
  }

  /** A naive value and an aware one never print alike: the naive text
      has 19 or 26 characters, the aware one 25 or 32. */
  lemma NaiveNeverAware(naive: DateTime, aware: DateTime)
    requires Valid(naive) && Valid(aware)
    requires naive.offset.None? && aware.offset.Some?
    ensures IsoFormat(naive) != IsoFormat(aware)
  {
  }

  lemma DatePartInjective(d1: DateTime, d2: DateTime)
    requires Valid(d1) && Valid(d2)
    ensures DatePart(d1) == DatePart(d2) ==> d1.year == d2.year && d1.month == d2.month && d1.day == d2.day
  {
    var t1, t2 := DatePart(d1), DatePart(d2);
    if t1 == t2 {
      assert t1[..4] == DecText(d1.year, 4) && t2[..4] == DecText(d2.year, 4);
      assert t1[5..7] == DecText(d1.month, 2) && t2[5..7] == DecText(d2.month, 2);
      assert t1[8..] == DecText(d1.day, 2) && t2[8..] == DecText(d2.day, 2);
      assert Pow10(2) == 100 && Pow10(4) == 10000;
      DecTextInjective(d1.year, d2.year, 4);
      DecTextInjective(d1.month, d2.month, 2);
      DecTextInjective(d1.day, d2.day, 2);
    }
  }

  lemma TimePartInjective(d1: DateTime, d2: DateTime)
    requires Valid(d1) && Valid(d2)
    ensures TimePart(d1) == TimePart(d2) ==> d1.hour == d2.hour && d1.minute == d2.minute && d1.second == d2.second
  {
    var t1, t2 := TimePart(d1), TimePart(d2);
    if t1 == t2 {
      assert t1[1..3] == DecText(d1.hour, 2) && t2[1..3] == DecText(d2.hour, 2);
      assert t1[4..6] == DecText(d1.minute, 2) && t2[4..6] == DecText(d2.minute, 2);
      assert t1[7..] == DecText(d1.second, 2) && t2[7..] == DecText(d2.second, 2);
      assert Pow10(2) == 100;
      DecTextInjective(d1.hour, d2.hour, 2);
      DecTextInjective(d1.minute, d2.minute, 2);
      DecTextInjective(d1.second, d2.second, 2);
    }
  }

  lemma OffsetTextInjective(o1: int, o2: int)
    requires -1440 < o1 < 1440 && -1440 < o2 < 1440
    ensures OffsetText(o1) == OffsetText(o2) ==> o1 == o2
  {
    var a1, a2 := Abs(o1), Abs(o2);
    var t1, t2 := OffsetText(o1), OffsetText(o2);
    if t1 == t2 {
      assert t1[1..3] == DecText(a1 / 60, 2) && t2[1..3] == DecText(a2 / 60, 2);
      assert t1[4..] == DecText(a1 % 60, 2) && t2[4..] == DecText(a2 % 60, 2);
      assert Pow10(2) == 100;
      DecTextInjective(a1 / 60, a2 / 60, 2);
      DecTextInjective(a1 % 60, a2 % 60, 2);
      HoursMinutes(a1, a2);
      assert (o1 < 0) == (t1[0] == '-') == (o2 < 0);
    }
  }

  /** `datetime.fromisoformat` inverts `isoformat`: distinct values have
      distinct texts. */
  lemma IsoFormatInjective(d1: DateTime, d2: DateTime)
    requires Valid(d1) && Valid(d2)
    ensures IsoFormat(d1) == IsoFormat(d2) ==> d1 == d2
  {
    var t1, t2 := IsoFormat(d1), IsoFormat(d2);
    if t1 == t2 {
      assert (d1.microsecond != 0) == (d2.microsecond != 0) && d1.offset.Some? == d2.offset.Some?;
      var r1, r2 := TimePart(d1) + (FractionPart(d1) + ZonePart(d1)), TimePart(d2) + (FractionPart(d2) + ZonePart(d2));
      assert DatePart(d1) == t1[..10] == t2[..10] == DatePart(d2);
      assert r1 == t1[10..] == t2[10..] == r2;
      assert TimePart(d1) == r1[..9] == r2[..9] == TimePart(d2);
      var z1, z2 := FractionPart(d1) + ZonePart(d1), FractionPart(d2) + ZonePart(d2);
      assert z1 == r1[9..] == r2[9..] == z2;
      assert FractionPart(d1) == z1[..|FractionPart(d1)|] == z2[..|FractionPart(d2)|] == FractionPart(d2);
      assert ZonePart(d1) == z1[|FractionPart(d1)|..] == z2[|FractionPart(d2)|..] == ZonePart(d2);
      DatePartInjective(d1, d2);
      TimePartInjective(d1, d2);
      if d1.microsecond != 0 {
        assert FractionPart(d1)[1..] == DecText(d1.microsecond, 6);
        assert FractionPart(d2)[1..] == DecText(d2.microsecond, 6);
        assert Pow10(6) == 1_000_000;
        DecTextInjective(d1.microsecond, d2.microsecond, 6);
      }
      if d1.offset.Some? {
        OffsetTextInjective(d1.offset.value, d2.offset.value);
      }
    }
  }
}

=== FILE: json.dfy ===
/** JSON-shaped Python values (None, bool, int, str, list, dict) and
    `json.dumps(v, sort_keys=True)` with the default separators ", " and ": ". */
module Json {
  import StrOrder
  import JsonText

  /** A `dict` is the list of its members in insertion order. */
  datatype Value =
    | Null
    | Bool(b: bool)
    | Int(n: int)
    | Str(s: string)
    | Arr(elems: seq<Value>)
    | Obj(members: seq<Member>)

  datatype Member = Member(key: string, value: Value)

  /** An object member after its value has been serialised. */
  datatype Pair = Pair(key: string, text: string)

  predicate DistinctKeys(ms: seq<Member>) {
    forall i, j :: 0 <= i < j < |ms| ==> ms[i].key != ms[j].key
  }

  /** What a Python `dict` guarantees: no key twice, at every depth. */
  predicate WellFormed(v: Value)
    decreases v
  {
    match v
    case Arr(elems) => forall i :: 0 <= i < |elems| ==> WellFormed(elems[i])
    case Obj(ms) => DistinctKeys(ms) && forall i :: 0 <= i < |ms| ==> WellFormed(ms[i].value)
    case _ => true
  }

  predicate PairKeysDistinct(ps: seq<Pair>) {
    forall i, j :: 0 <= i < j < |ps| ==> ps[i].key != ps[j].key
  }

  predicate StrictlySorted(ps: seq<Pair>) {
    forall i, j :: 0 <= i < j < |ps| ==> StrOrder.Less(ps[i].key, ps[j].key)
  }

  /** Inserts `p` before the first pair whose key sorts above it. */
  function Insert(p: Pair, ps: seq<Pair>): seq<Pair>
    decreases |ps|
  {
    if |ps| == 0 then [p]
    else if StrOrder.Less(p.key, ps[0].key) then [p] + ps
    else [ps[0]] + Insert(p, ps[1..])
  }

  /** `sorted(items)` on members with distinct keys: an insertion sort. */
  function SortByKey(ps: seq<Pair>): seq<Pair>
    decreases |ps|
  {
    if |ps| == 0 then [] else Insert(ps[0], SortByKey(ps[1..]))
  }

  /** Inserting adds `p` and keeps every pair that was there. */
  lemma {:induction false} InsertPermutes(p: Pair, ps: seq<Pair>)
    ensures multiset(Insert(p, ps)) == multiset(ps) + multiset{p}
    decreases |ps|
  {
    if |ps| > 0 && !StrOrder.Less(p.key, ps[0].key) {
      InsertPermutes(p, ps[1..]);
      assert ps == [ps[0]] + ps[1..];
    }
  }

  /** Sorting is a permutation. */
  lemma {:induction false} SortByKeyPermutes(ps: seq<Pair>)
    ensures multiset(SortByKey(ps)) == multiset(ps)
    decreases |ps|
  {
    if |ps| > 0 {
      var rest := SortByKey(ps[1..]);
      assert SortByKey(ps) == Insert(ps[0], rest);
      SortByKeyPermutes(ps[1..]);
      InsertPermutes(ps[0], rest);
      assert ps == [ps[0]] + ps[1..];
      assert multiset(ps) == multiset{ps[0]} + multiset(ps[1..]);
    }
  }

  lemma SortByKeyElements(ps: seq<Pair>)
    ensures forall p :: p in SortByKey(ps) <==> p in ps
  {
    var r := SortByKey(ps);
    SortByKeyPermutes(ps);
    forall p ensures p in r <==> p in ps {
      assert p in r <==> p in multiset(r);
      assert p in ps <==> p in multiset(ps);
    }
  }

  lemma SortedCons(x: Pair, ps: seq<Pair>)
    requires StrictlySorted(ps)
    requires forall q :: q in ps ==> StrOrder.Less(x.key, q.key)
    ensures StrictlySorted([x] + ps)
  {
    forall i, j | 0 <= i < j < |ps| + 1
      ensures StrOrder.Less(([x] + ps)[i].key, ([x] + ps)[j].key)
    {
      assert ([x] + ps)[j] == ps[j - 1];
      if i > 0 {
        assert ([x] + ps)[i] == ps[i - 1];
      }
    }
  }

  lemma {:induction false} InsertSorted(p: Pair, ps: seq<Pair>)
    requires StrictlySorted(ps)
    requires forall q :: q in ps ==> q.key != p.key
    ensures StrictlySorted(Insert(p, ps))
    decreases |ps|
  {
    if |ps| == 0 {
    } else if StrOrder.Less(p.key, ps[0].key) {
      forall q | q in ps ensures StrOrder.Less(p.key, q.key) {
        if q != ps[0] {
          var k :| 0 <= k < |ps| && ps[k] == q;
          StrOrder.LessTransitive(p.key, ps[0].key, q.key);
        }
      }
      SortedCons(p, ps);
    } else {
      var rest := Insert(p, ps[1..]);
      assert ps == [ps[0]] + ps[1..];
      InsertSorted(p, ps[1..]);
      InsertPermutes(p, ps[1..]);
      StrOrder.LessTotal(p.key, ps[0].key);
      forall x | x in rest ensures StrOrder.Less(ps[0].key, x.key) {
        assert x in multiset(rest);
        assert x in multiset(ps[1..]) + multiset{p};
        if x != p {
          assert x in multiset(ps[1..]);
          var k :| 0 <= k < |ps[1..]| && ps[1..][k] == x;
          assert ps[k + 1] == x;
        }
      }
      SortedCons(ps[0], rest);
    }
  }

  /** Sorting members whose keys are distinct orders them strictly by key. */
  lemma {:induction false} SortByKeySorted(ps: seq<Pair>)
    requires PairKeysDistinct(ps)
    ensures StrictlySorted(SortByKey(ps))
    decreases |ps|
  {
    if |ps| > 0 {
      var rest := SortByKey(ps[1..]);
      assert ps == [ps[0]] + ps[1..];
      SortByKeySorted(ps[1..]);
      SortByKeyPermutes(ps[1..]);
      forall q | q in rest ensures q.key != ps[0].key {
        assert q in multiset(ps[1..]);
        var k :| 0 <= k < |ps[1..]| && ps[1..][k] == q;
        assert ps[k + 1] == q;
      }
      InsertSorted(ps[0], rest);
    }
  }

  /** A list whose neighbours are in order is strictly sorted. */
  lemma {:induction false} SortedFromAdjacent(ps: seq<Pair>)
    requires forall i :: 0 < i < |ps| ==> StrOrder.Less(ps[i - 1].key, ps[i].key)
    ensures StrictlySorted(ps)
    decreases |ps|
  {
    if |ps| > 1 {
      var rest := ps[1..];
      SortedFromAdjacent(rest);
      forall q | q in rest ensures StrOrder.Less(ps[0].key, q.key) {
        var k :| 0 <= k < |rest| && rest[k] == q;
        if k > 0 {
          assert StrOrder.Less(rest[0].key, rest[k].key);
          StrOrder.LessTransitive(ps[0].key, rest[0].key, q.key);
        }
      }
      SortedCons(ps[0], rest);
      assert ps == [ps[0]] + rest;
    }
  }

  lemma SameElementsBothEmpty(xs: seq<Pair>, ys: seq<Pair>)
    requires forall p :: p in xs <==> p in ys
    ensures |xs| == 0 <==> |ys| == 0
  {
    if |xs| > 0 {
      assert xs[0] in ys;
    }
    if |ys| > 0 {
      assert ys[0] in xs;
    }
  }

  /** Two strictly sorted lists holding the same pairs are the same list:
      the sorted order of distinct keys is unique. */
  lemma {:induction false} SortedUnique(xs: seq<Pair>, ys: seq<Pair>)
    requires StrictlySorted(xs) && StrictlySorted(ys)
    requires forall p :: p in xs <==> p in ys
    ensures xs == ys
    decreases |xs|
  {
    SameElementsBothEmpty(xs, ys);
    if |xs| > 0 {
      assert xs[0] in ys;
      assert ys[0] in xs;
      var i :| 0 <= i < |xs| && xs[i] == ys[0];
      var j :| 0 <= j < |ys| && ys[j] == xs[0];
      if j > 0 {
        if i > 0 {
          StrOrder.LessTransitive(xs[0].key, xs[i].key, ys[j].key);
        }
        StrOrder.LessIrreflexive(xs[0].key);
        assert false;
      }
      forall p ensures p in xs[1..] <==> p in ys[1..] {
        if p in xs[1..] {
          var k :| 0 <= k < |xs[1..]| && xs[1..][k] == p;
          StrOrder.LessIrreflexive(p.key);
          assert p != xs[0];
          assert p in ys;
        }
        if p in ys[1..] {
          var k :| 0 <= k < |ys[1..]| && ys[1..][k] == p;
          StrOrder.LessIrreflexive(p.key);
          assert p != ys[0];
          assert p in xs;
        }
      }
      SortedUnique(xs[1..], ys[1..]);
      assert xs == [xs[0]] + xs[1..];
      assert ys == [ys[0]] + ys[1..];
    }
  }

  /** `sep.join(parts)`. */
  function Join(parts: seq<string>, sep: string): string
    decreases |parts|
  {
    if |parts| == 0 then ""
    else if |parts| == 1 then parts[0]
    else parts[0] + sep + Join(parts[1..], sep)
  }

  /** Each member with its value already serialised, in insertion order. */
  function RenderMembers(ms: seq<Member>): seq<Pair>
    decreases Obj(ms), 0
  {
    seq(|ms|, i requires 0 <= i < |ms| => Pair(ms[i].key, Dumps(ms[i].value)))
  }

  function PairTexts(ps: seq<Pair>): seq<string> {
    seq(|ps|, i requires 0 <= i < |ps| => JsonText.Quote(ps[i].key) + ": " + ps[i].text)
  }

  function Dumps(v: Value): string
    decreases v, 1
  {
    match v
    case Null => "null"
    case Bool(b) => if b then "true" else "false"
    case Int(n) => JsonText.IntToString(n)
    case Str(s) => JsonText.Quote(s)
    case Arr(elems) =>
      "[" + Join(seq(|elems|, i requires 0 <= i < |elems| => Dumps(elems[i])), ", ") + "]"
    case Obj(ms) =>
      "{" + Join(PairTexts(SortByKey(RenderMembers(ms))), ", ") + "}"
  }
}

=== FILE: json_equiv.dfy ===
/** Equality of JSON-shaped values that ignores the order in which object
    members were inserted, Python's `==` on such values, and the property
    the sorted serialisation exists for: reordering members does not change
    the text. */
module JsonEquiv {
  import opened Json

  /** The same value up to member order: arrays element by element, objects
      with the same number of members, every member of each side matched by
      a member of the other side with the same key and an equivalent value. */
  predicate Equiv(a: Value, b: Value)
    decreases a, 2
  {
    if a.Arr? && b.Arr? then
      && |a.elems| == |b.elems|
      && forall i :: 0 <= i < |a.elems| ==> Equiv(a.elems[i], b.elems[i])
    else if a.Obj? && b.Obj? then
      && |a.members| == |b.members|
      && (forall i :: 0 <= i < |a.members| ==> MatchedIn(a.members[i], b.members))
      && (forall j :: 0 <= j < |b.members| ==> MatchedBy(a.members, b.members[j]))
    else
      a == b
  }

  /** Some member of `ns` has the key of `m` and a value equivalent to it. */
  predicate MatchedIn(m: Member, ns: seq<Member>)
    decreases m.value, 3
  {
    exists j :: 0 <= j < |ns| && ns[j].key == m.key && Equiv(m.value, ns[j].value)
  }

  /** Some member of `ms` has the key of `n` and a value equivalent to it. */
  predicate MatchedBy(ms: seq<Member>, n: Member)
    decreases Obj(ms), 1
  {
    exists i :: 0 <= i < |ms| && ms[i].key == n.key && Equiv(ms[i].value, n.value)
  }

  /** A `bool` is an `int` in Python: `True == 1` and `False == 0`. */
  predicate IsNumber(v: Value) {
    v.Bool? || v.Int?
  }

  function NumberValue(v: Value): int
    requires IsNumber(v)
  {
    if v.Bool? then (if v.b then 1 else 0) else v.n
  }

  /** Python's `==` on JSON-shaped values. For dicts (distinct keys) the
      member clauses amount to `len(a) == len(b)` and `a[k] == b[k]` for
      every key `k`. */
  predicate PyEq(a: Value, b: Value)
    decreases a, 2
  {
    if a.Arr? && b.Arr? then
      && |a.elems| == |b.elems|
      && forall i :: 0 <= i < |a.elems| ==> PyEq(a.elems[i], b.elems[i])
    else if a.Obj? && b.Obj? then
      && |a.members| == |b.members|
      && (forall i :: 0 <= i < |a.members| ==> PyMatchedIn(a.members[i], b.members))
      && (forall j :: 0 <= j < |b.members| ==> PyMatchedBy(a.members, b.members[j]))
    else if IsNumber(a) && IsNumber(b) then
      NumberValue(a) == NumberValue(b)
    else
      a == b
  }

  predicate PyMatchedIn(m: Member, ns: seq<Member>)
    decreases m.value, 3
  {
    exists j :: 0 <= j < |ns| && ns[j].key == m.key && PyEq(m.value, ns[j].value)
  }

  predicate PyMatchedBy(ms: seq<Member>, n: Member)
    decreases Obj(ms), 1
  {
    exists i :: 0 <= i < |ms| && ms[i].key == n.key && PyEq(ms[i].value, n.value)
  }

  lemma {:induction false} EquivReflexive(a: Value)
    ensures Equiv(a, a)
    decreases a
  {
    match a
    case Arr(elems) =>
      forall i | 0 <= i < |elems| ensures Equiv(elems[i], elems[i]) {
        EquivReflexive(elems[i]);
      }
    case Obj(ms) =>
      forall i | 0 <= i < |ms| ensures MatchedIn(ms[i], ms) && MatchedBy(ms, ms[i]) {
        EquivReflexive(ms[i].value);
      }
    case _ =>
  }

  /** Values that differ only in member order are equal for Python. */
  lemma {:induction false} EquivImpliesPyEq(a: Value, b: Value)
    requires Equiv(a, b)
    ensures PyEq(a, b)
    decreases a, 2
  {
    if a.Arr? && b.Arr? {
      forall i | 0 <= i < |a.elems| ensures PyEq(a.elems[i], b.elems[i]) {
        EquivImpliesPyEq(a.elems[i], b.elems[i]);
      }
    } else if a.Obj? && b.Obj? {
      PyMatchedForward(a, b);
      PyMatchedBackward(a, b);
    }
  }

  /** Every member of `a` has a Python-equal partner in `b`. */
  lemma {:induction false} PyMatchedForward(a: Value, b: Value)
    requires a.Obj? && b.Obj?
    requires Equiv(a, b)
    ensures forall i :: 0 <= i < |a.members| ==> PyMatchedIn(a.members[i], b.members)
    decreases a, 1
  {
    var ms, ns := a.members, b.members;
    forall i | 0 <= i < |ms| ensures PyMatchedIn(ms[i], ns) {
      assert MatchedIn(ms[i], ns);
      var j :| 0 <= j < |ns| && ns[j].key == ms[i].key && Equiv(ms[i].value, ns[j].value);
      EquivImpliesPyEq(ms[i].value, ns[j].value);
    }
  }

  /** Every member of `b` has a Python-equal partner in `a`. */
  lemma {:induction false} PyMatchedBackward(a: Value, b: Value)
    requires a.Obj? && b.Obj?
    requires Equiv(a, b)
    ensures forall j :: 0 <= j < |b.members| ==> PyMatchedBy(a.members, b.members[j])
    decreases a, 1
  {
    var ms, ns := a.members, b.members;
    forall j | 0 <= j < |ns| ensures PyMatchedBy(ms, ns[j]) {
      assert MatchedBy(ms, ns[j]);
      var i :| 0 <= i < |ms| && ms[i].key == ns[j].key && Equiv(ms[i].value, ns[j].value);
      EquivImpliesPyEq(ms[i].value, ns[j].value);
    }
  }

  /** Key-order independence of `json.dumps(..., sort_keys=True)`: two
      dict-shaped values holding the same members, at every depth, in any
      insertion order, serialise to the same text. */
  lemma {:induction false} EquivSameDumps(a: Value, b: Value)
    requires WellFormed(a) && WellFormed(b)
    requires Equiv(a, b)
    ensures Dumps(a) == Dumps(b)
    decreases a, 3
  {
    if a.Arr? && b.Arr? {
      ArraysSameDumps(a, b);
    } else if a.Obj? && b.Obj? {
      ObjectsSameDumps(a, b);
    }
  }

  lemma {:induction false} ArraysSameDumps(a: Value, b: Value)
    requires a.Arr? && b.Arr?
    requires WellFormed(a) && WellFormed(b)
    requires Equiv(a, b)
    ensures Dumps(a) == Dumps(b)
    decreases a, 1
  {
    var xs, ys := a.elems, b.elems;
    var ta := seq(|xs|, i requires 0 <= i < |xs| => Dumps(xs[i]));
    var tb := seq(|ys|, i requires 0 <= i < |ys| => Dumps(ys[i]));
    forall i | 0 <= i < |xs| ensures ta[i] == tb[i] {
      EquivSameDumps(xs[i], ys[i]);
    }
    assert ta == tb;
  }

  lemma {:induction false} ObjectsSameDumps(a: Value, b: Value)
    requires a.Obj? && b.Obj?
    requires WellFormed(a) && WellFormed(b)
    requires Equiv(a, b)
    ensures Dumps(a) == Dumps(b)
    decreases a, 2
  {
    var ms, ns := a.members, b.members;
    var rp, rq := RenderMembers(ms), RenderMembers(ns);
    RenderedMatched(a, b);
    assert PairKeysDistinct(rp) by {
      assert DistinctKeys(ms);
    }
    assert PairKeysDistinct(rq) by {
      assert DistinctKeys(ns);
    }
    var sp, sq := SortByKey(rp), SortByKey(rq);
    SortByKeySorted(rp);
    SortByKeySorted(rq);
    SortByKeyElements(rp);
    SortByKeyElements(rq);
    SortedUnique(sp, sq);
  }

  /** Equivalent objects render to the same serialised members, in
      possibly different orders. */
  lemma RenderedMatched(a: Value, b: Value)
    requires a.Obj? && b.Obj?
    requires WellFormed(a) && WellFormed(b)
    requires Equiv(a, b)
    ensures forall p :: p in RenderMembers(a.members) <==> p in RenderMembers(b.members)
    decreases a, 1
  {
    RenderedForward(a, b);
    RenderedBackward(a, b);
  }

  lemma {:induction false} RenderedForward(a: Value, b: Value)
    requires a.Obj? && b.Obj?
    requires WellFormed(a) && WellFormed(b)
    requires Equiv(a, b)
    ensures forall p :: p in RenderMembers(a.members) ==> p in RenderMembers(b.members)
    decreases a, 0
  {
    var ms, ns := a.members, b.members;
    var rp, rq := RenderMembers(ms), RenderMembers(ns);
    forall i | 0 <= i < |rp| ensures rp[i] in rq {
      assert MatchedIn(ms[i], ns);
      var j :| 0 <= j < |ns| && ns[j].key == ms[i].key && Equiv(ms[i].value, ns[j].value);
      EquivSameDumps(ms[i].value, ns[j].value);
      assert rq[j] == rp[i];
    }
  }

  lemma {:induction false} RenderedBackward(a: Value, b: Value)
    requires a.Obj? && b.Obj?
    requires WellFormed(a) && WellFormed(b)
    requires Equiv(a, b)
    ensures forall p :: p in RenderMembers(b.members) ==> p in RenderMembers(a.members)
    decreases a, 0
  {
    var ms, ns := a.members, b.members;
    var rp, rq := RenderMembers(ms), RenderMembers(ns);
    forall j | 0 <= j < |rq| ensures rq[j] in rp {
      assert MatchedBy(ms, ns[j]);
      var i :| 0 <= i < |ms| && ms[i].key == ns[j].key && Equiv(ms[i].value, ns[j].value);
      EquivSameDumps(ms[i].value, ns[j].value);
      assert rp[i] == rq[j];
    }
  }

  /** The flat case: permuting the members of one dict (its values left
      as they are) does not change its serialisation. */
  lemma PermutedMembersSameDumps(ms: seq<Member>, ns: seq<Member>)
    requires WellFormed(Obj(ms)) && WellFormed(Obj(ns))
    requires multiset(ms) == multiset(ns)
    ensures Dumps(Obj(ms)) == Dumps(Obj(ns))
  {
    assert |ms| == |multiset(ms)| == |ns|;
    forall i | 0 <= i < |ms| ensures MatchedIn(ms[i], ns) {
      assert ms[i] in multiset(ns);
      var j :| 0 <= j < |ns| && ns[j] == ms[i];
      EquivReflexive(ms[i].value);
    }
    forall j | 0 <= j < |ns| ensures MatchedBy(ms, ns[j]) {
      assert ns[j] in multiset(ms);
      var i :| 0 <= i < |ms| && ms[i] == ns[j];
      EquivReflexive(ns[j].value);
    }
    EquivSameDumps(Obj(ms), Obj(ns));
  }
}

=== FILE: json_text.dfy ===
/** The scalar text of Python's `json.dumps` with its default
    `ensure_ascii=True`: decimal integers and quoted, escaped strings. */
module JsonText {

  const Digits := "0123456789"
  const HexDigits := "0123456789abcdef"

  /** `str(n)` for a non-negative integer. */
  function NatToString(n: nat): (r: string)
    ensures |r| >= 1
    ensures forall i :: 0 <= i < |r| ==> '0' <= r[i] <= '9'
    decreases n
  {
    if n < 10 then [Digits[n]] else NatToString(n / 10) + [Digits[n % 10]]
  }

  /** `str(i)` / `int.__repr__`: a leading '-' for negative values. */
  function IntToString(i: int): (r: string)
    ensures |r| >= 1
    ensures (r[0] == '-') <==> i < 0
  {
    if i < 0 then "-" + NatToString(-i) else NatToString(i)
  }

  /** The value of a decimal digit. */
  function DigitValue(c: char): int {
    c as int - '0' as int
  }

  /** `int(s)` on a text of decimal digits. */
  function ParseDigits(s: string): int
    decreases |s|
  {
    if |s| == 0 then 0 else ParseDigits(s[..|s| - 1]) * 10 + DigitValue(s[|s| - 1])
  }

  /** `int(s)`: the decimal text read back as an integer. */
  function ParseInt(s: string): int {
    if |s| > 0 && s[0] == '-' then -ParseDigits(s[1..]) else ParseDigits(s)
  }

  lemma DigitOf(d: nat)
    requires d < 10
    ensures DigitValue(Digits[d]) == d
  {
  }

  lemma {:induction false} NatToStringRoundTrip(n: nat)
    ensures ParseDigits(NatToString(n)) == n
    decreases n
  {
    if n < 10 {
      DigitOf(n);
    } else {
      var p := NatToString(n / 10);
      var r := p + [Digits[n % 10]];
      assert NatToString(n) == r;
      assert r[..|r| - 1] == p;
      NatToStringRoundTrip(n / 10);
      DigitOf(n % 10);
    }
  }

  /** Reading an integer's text back gives the integer. */
  lemma IntToStringRoundTrip(i: int)
    ensures ParseInt(IntToString(i)) == i
  {
    if i < 0 {
      var r := IntToString(i);
      assert r[1..] == NatToString(-i);
      NatToStringRoundTrip(-i);
    } else {
      NatToStringRoundTrip(i);
    }
  }

  /** Distinct integers have distinct texts. */
  lemma IntToStringInjective(i: int, j: int)
    ensures IntToString(i) == IntToString(j) ==> i == j
  {
    IntToStringRoundTrip(i);
    IntToStringRoundTrip(j);
  }

  /** The last `k` hex digits of `n`, most significant first. */
  function HexText(n: nat, k: nat): (r: string)
    ensures |r| == k
  {
    if k == 0 then [] else HexText(n / 16, k - 1) + [HexDigits[n % 16]]
  }

  /** `'{0:04x}'.format(n)`: four lower-case hex digits. */
  function Hex4(n: nat): (r: string)
    requires n < 0x1_0000
    ensures |r| == 4
  {
    HexText(n, 4)
  }

  /** The value of a lower-case hex digit. */
  function HexValue(c: char): int {
    if '0' <= c <= '9' then c as int - '0' as int else c as int - 'a' as int + 10
  }

  /** `int(h, 16)`. */
  function ParseHex(h: string): int
    decreases |h|
  {
    if |h| == 0 then 0 else ParseHex(h[..|h| - 1]) * 16 + HexValue(h[|h| - 1])
  }

  function Pow16(k: nat): nat {
    if k == 0 then 1 else 16 * Pow16(k - 1)
  }

  lemma HexDigitOf(d: nat)
    requires d < 16
    ensures HexValue(HexDigits[d]) == d
  {
  }

  /** Reading `k` hex digits back gives any number below `16^k`. */
  lemma {:induction false} HexTextRoundTrip(n: nat, k: nat)
    requires n < Pow16(k)
    ensures ParseHex(HexText(n, k)) == n
  {
    if k > 0 {
      var t := HexText(n, k);
      assert t[..k - 1] == HexText(n / 16, k - 1);
      HexTextRoundTrip(n / 16, k - 1);
      HexDigitOf(n % 16);
    }
  }

  lemma Hex4RoundTrip(n: nat)
    requires n < 0x1_0000
    ensures ParseHex(Hex4(n)) == n
  {
    assert Pow16(4) == 0x1_0000;
    HexTextRoundTrip(n, 4);
  }

  /** Characters `json` writes through unchanged: the printable ASCII range
      ' '..'~' minus the quote and the backslash. */
  predicate Plain(c: char) {
    ' ' <= c <= '~' && c != '"' && c != '\\'
  }

  /** The replacement for one character: the short escapes for the backslash,
      the quote, \b \f \n \r \t; `\uXXXX` for any other character outside
      ' '..'~'; a UTF-16 surrogate pair for characters beyond U+FFFF. */
  function EscapeChar(c: char): (r: string)
    ensures Plain(c) <==> r == [c]
    ensures !Plain(c) ==> |r| >= 2 && r[0] == '\\'
  {
    var n := c as int;
    if Plain(c) then [c]
    else if c == '\\' then "\\\\"
    else if c == '"' then "\\\""
    else if n == 0x08 then "\\b"
    else if n == 0x0c then "\\f"
    else if c == '\n' then "\\n"
    else if c == '\r' then "\\r"
    else if c == '\t' then "\\t"
    else if n < 0x1_0000 then UnicodeEscape(n)
    else SurrogateEscape(n)
  }

  /** One `\uXXXX` group. */
  function UnicodeEscape(n: nat): (r: string)
    requires n < 0x1_0000
    ensures |r| == 6 && r[0] == '\\' && r[1] == 'u' && r[2..] == Hex4(n)
  {
    "\\u" + Hex4(n)
  }

  /** A code point beyond U+FFFF, written as the `\uXXXX` groups of its
      UTF-16 high and low surrogates. */
  function SurrogateEscape(n: int): (r: string)
    requires 0x1_0000 <= n < 0x11_0000
    ensures |r| == 12
  {
    UnicodeEscape(HighSurrogate(n)) + UnicodeEscape(LowSurrogate(n))
  }

  function HighSurrogate(n: int): (r: int)
    requires 0x1_0000 <= n < 0x11_0000
    ensures 0xd800 <= r < 0xdc00
  {
    0xd800 + (n - 0x1_0000) / 0x400
  }

  function LowSurrogate(n: int): (r: int)
    requires 0x1_0000 <= n < 0x11_0000
    ensures 0xdc00 <= r < 0xe000
  {
    0xdc00 + (n - 0x1_0000) % 0x400
  }

  function Escape(s: string): (r: string)
    ensures |r| >= |s|
    decreases |s|
  {
    if |s| == 0 then "" else EscapeChar(s[0]) + Escape(s[1..])
  }

  /** A JSON string literal: the escaped text between double quotes. */
  function Quote(s: string): (r: string)
    ensures |r| >= 2 && r[0] == '"' && r[|r| - 1] == '"'
  {
    "\"" + Escape(s) + "\""
  }

  /** The character a short escape `\e` stands for. */
  function ShortValue(e: char): int {
    if e == 'b' then 0x08
    else if e == 'f' then 0x0c
    else if e == 'n' then '\n' as int
    else if e == 'r' then '\r' as int
    else if e == 't' then '\t' as int
    else e as int
  }

  /** Reading a `\uXXXX` escape back. A high surrogate followed by a second
      `\uXXXX` is joined with it into one code point. */
  function DecodeUnicode(w: string): (r: (int, nat))
    requires |w| >= 6
    ensures 6 <= r.1 <= |w|
  {
    var hi := ParseHex(w[2..6]);
    if 0xd800 <= hi < 0xdc00 && |w| >= 12 then
      (0x1_0000 + (hi - 0xd800) * 0x400 + (ParseHex(w[8..12]) - 0xdc00), 12)
    else (hi, 6)
  }

  /** Reading one character back from the front of an escaped text: its
      code point and the number of characters it took. Looser than
      `json.loads`, which also checks that a high surrogate is followed by
      `\u` and a low surrogate; every text `Escape` writes passes both. */
  function DecodeOne(w: string): (r: (int, nat))
    requires |w| > 0
    ensures 1 <= r.1 <= |w|
  {
    if w[0] != '\\' || |w| < 2 then (w[0] as int, 1)
    else if w[1] == 'u' && |w| >= 6 then DecodeUnicode(w)
    else (ShortValue(w[1]), 2)
  }

  /** The code points of an escaped text. */
  function Unescape(w: string): seq<int>
    decreases |w|
  {
    if |w| == 0 then []
    else
      var (n, k) := DecodeOne(w);
      [n] + Unescape(w[k..])
  }

  function CodePoints(s: string): (r: seq<int>)
    ensures |r| == |s|
  {
    seq(|s|, i requires 0 <= i < |s| => s[i] as int)
  }

  /** A character escaped as `\uXXXX`: neither plain nor given a short escape. */
  predicate UnicodeEscaped(c: char) {
    !Plain(c) && c != '\\' && c != '"' && c as int != 0x08 && c as int != 0x0c
    && c != '\n' && c != '\r' && c != '\t'
  }

  lemma DecodeBasic(c: char, x: string)
    requires UnicodeEscaped(c) && c as int < 0x1_0000
    ensures DecodeOne(EscapeChar(c) + x) == (c as int, |EscapeChar(c)|)
  {
    var n := c as int;
    var u := UnicodeEscape(n);
    assert EscapeChar(c) == u;
    var w := u + x;
    assert w[0] == u[0] && w[1] == u[1];
    assert w[2..6] == u[2..] == Hex4(n);
    Hex4RoundTrip(n);
  }

  /** The two surrogates recombine into the code point they came from. */
  lemma SurrogateJoin(n: int)
    requires 0x1_0000 <= n < 0x11_0000
    ensures 0x1_0000 + (HighSurrogate(n) - 0xd800) * 0x400 + (LowSurrogate(n) - 0xdc00) == n
  {
    var m := n - 0x1_0000;
    assert m / 0x400 * 0x400 + m % 0x400 == m;
  }

  /** Two `\uXXXX` groups holding a high and a low surrogate read back as
      one code point. */
  lemma DecodePair(hi: nat, lo: nat, x: string)
    requires 0xd800 <= hi < 0xdc00 && 0xdc00 <= lo < 0xe000
    ensures DecodeOne(UnicodeEscape(hi) + UnicodeEscape(lo) + x)
         == (0x1_0000 + (hi - 0xd800) * 0x400 + (lo - 0xdc00), 12)
  {
    var u, v := UnicodeEscape(hi), UnicodeEscape(lo);
    var w := u + v + x;
    assert w[0] == u[0] && w[1] == u[1];
    assert w[2..6] == u[2..] == Hex4(hi);
    assert w[8..12] == v[2..] == Hex4(lo);
    Hex4RoundTrip(hi);
    Hex4RoundTrip(lo);
    JoinPair(w, hi, lo);
  }

  lemma JoinPair(w: string, hi: int, lo: int)
    requires 0xd800 <= hi < 0xdc00
    requires |w| >= 12 && w[0] == '\\' && w[1] == 'u'
    requires ParseHex(w[2..6]) == hi && ParseHex(w[8..12]) == lo
    ensures DecodeOne(w) == (0x1_0000 + (hi - 0xd800) * 0x400 + (lo - 0xdc00), 12)
  {
  }

  /** A surrogate pair reads back as the code point it was made from. */
  lemma DecodeSurrogates(n: int, x: string)
    requires 0x1_0000 <= n < 0x11_0000
    ensures DecodeOne(SurrogateEscape(n) + x) == (n, 12)
  {
    var hi, lo := HighSurrogate(n), LowSurrogate(n);
    DecodePair(hi, lo, x);
    assert SurrogateEscape(n) + x == UnicodeEscape(hi) + UnicodeEscape(lo) + x;
    SurrogateJoin(n);
  }

  lemma DecodeAstral(c: char, x: string)
    requires UnicodeEscaped(c) && c as int >= 0x1_0000
    ensures DecodeOne(EscapeChar(c) + x) == (c as int, |EscapeChar(c)|)
  {
    assert EscapeChar(c) == SurrogateEscape(c as int);
    DecodeSurrogates(c as int, x);
  }

  /** Reading back the escape of `c` from the front of any text gives `c`
      and consumes exactly the escape. */
  lemma DecodeEscapeChar(c: char, x: string)
    ensures DecodeOne(EscapeChar(c) + x) == (c as int, |EscapeChar(c)|)
  {
    if UnicodeEscaped(c) {
      if c as int < 0x1_0000 {
        DecodeBasic(c, x);
      } else {
        DecodeAstral(c, x);
      }
    } else {
      var w := EscapeChar(c) + x;
      assert w[0] == EscapeChar(c)[0];
      if !Plain(c) {
        assert w[1] == EscapeChar(c)[1];
      }
    }
  }

  /** The decoder `Unescape` inverts the escaping: the escaped text reads
      back as exactly the code points of the original. */
  lemma {:induction false} UnescapeEscape(s: string)
    ensures Unescape(Escape(s)) == CodePoints(s)
    decreases |s|
  {
    if |s| > 0 {
      var a, rest := EscapeChar(s[0]), Escape(s[1..]);
      assert Escape(s) == a + rest;
      DecodeEscapeChar(s[0], rest);
      assert (a + rest)[|a|..] == rest;
      UnescapeEscape(s[1..]);
      assert CodePoints(s) == [s[0] as int] + CodePoints(s[1..]);
    }
  }

  /** Distinct strings have distinct escaped texts. */
  lemma EscapeInjective(s: string, t: string)
    ensures Escape(s) == Escape(t) ==> s == t
  {
    UnescapeEscape(s);
    UnescapeEscape(t);
    if Escape(s) == Escape(t) {
      var cs, ct := CodePoints(s), CodePoints(t);
      assert |s| == |cs| == |ct| == |t|;
      forall i | 0 <= i < |s| ensures s[i] == t[i] {
        assert cs[i] == s[i] as int && ct[i] == t[i] as int;
      }
    }
  }

  /** Distinct strings have distinct JSON literals. */
  lemma QuoteInjective(s: string, t: string)
    ensures Quote(s) == Quote(t) ==> s == t
  {
    if Quote(s) == Quote(t) {
      var q := Quote(s);
      assert Escape(s) == q[1..|q| - 1];
      assert Escape(t) == q[1..|q| - 1];
      EscapeInjective(s, t);
    }
  }

  /** Text made only of plain characters, such as an ISO timestamp. */
  predicate PlainText(s: string) {
    forall i :: 0 <= i < |s| ==> Plain(s[i])
  }

  /** Text made only of plain characters is written unchanged. */
  lemma {:induction false} EscapePlain(s: string)
    requires PlainText(s)
    ensures Escape(s) == s
    decreases |s|
  {
    if |s| > 0 {
      assert PlainText(s[1..]) by {
        assert forall i :: 0 <= i < |s[1..]| ==> s[1..][i] == s[i + 1];
      }
      EscapePlain(s[1..]);
      assert s == [s[0]] + s[1..];
    }
  }

  /** Plain text is quoted by surrounding it with double quotes. */
  lemma QuotePlain(s: string)
    requires PlainText(s)
    ensures Quote(s) == "\"" + s + "\""
  {
    EscapePlain(s);
  }
}

=== FILE: option.dfy ===
/** An optional value: SQL NULL for a nullable column, Python's `None`
    for an optional argument, a naive `datetime`'s missing UTC offset. */
module Optional {
  datatype Option<T> = None | Some(value: T)
}

=== FILE: record_layout.dfy ===
/** The canonical text of the six-field record, written out: sorting the
    keys puts the fields in the order action, actor, new, old, resource,
    timestamp, whatever order the dict was built in. */
module RecordLayout {
  import opened Json
  import JsonText
  import StrOrder
  import AuditChain

  /** One `"key": text` member as `json.dumps` writes a plain key. */
  function Field(key: string, text: string): string {
    "\"" + key + "\"" + ": " + text
  }

  /** The record's text with its members in sorted-key order. */
  function RecordText(actor: string, action: string, resourceType: string, resourceId: string,
                      timestamp: Value, oldVal: Value, newVal: Value): string
  {
    "{"
    + (Field("action", JsonText.Quote(action)) + ", "
       + (Field("actor", JsonText.Quote(actor)) + ", "
          + (Field("new", Dumps(newVal)) + ", "
             + (Field("old", Dumps(oldVal)) + ", "
                + (Field("resource", JsonText.Quote(resourceType + ":" + resourceId)) + ", "
                   + Field("timestamp", Dumps(timestamp)))))))
    + "}"
  }

  lemma KeysInOrder()
    ensures StrOrder.Less("action", "actor")
    ensures StrOrder.Less("actor", "new")
    ensures StrOrder.Less("new", "old")
    ensures StrOrder.Less("old", "resource")
    ensures StrOrder.Less("resource", "timestamp")
  {
  }

  /** Sorting the rendered members, listed in the order the record's dict
      literal builds them, gives the alphabetical order. */
  lemma RecordPairsSorted(tActor: string, tAction: string, tResource: string,
                          tTimestamp: string, tOld: string, tNew: string)
    ensures SortByKey([Pair("actor", tActor), Pair("action", tAction), Pair("resource", tResource),
                       Pair("timestamp", tTimestamp), Pair("old", tOld), Pair("new", tNew)])
            == [Pair("action", tAction), Pair("actor", tActor), Pair("new", tNew),
                Pair("old", tOld), Pair("resource", tResource), Pair("timestamp", tTimestamp)]
  {
    var rp := [Pair("actor", tActor), Pair("action", tAction), Pair("resource", tResource),
               Pair("timestamp", tTimestamp), Pair("old", tOld), Pair("new", tNew)];
    var target := [Pair("action", tAction), Pair("actor", tActor), Pair("new", tNew),
                   Pair("old", tOld), Pair("resource", tResource), Pair("timestamp", tTimestamp)];
    KeysInOrder();
    SortedFromAdjacent(target);
    assert PairKeysDistinct(rp);
    SortByKeySorted(rp);
    SortByKeyElements(rp);
    SortedUnique(SortByKey(rp), target);
  }

  lemma JoinSix(t0: string, t1: string, t2: string, t3: string, t4: string, t5: string)
    ensures Join([t0, t1, t2, t3, t4, t5], ", ")
            == t0 + ", " + (t1 + ", " + (t2 + ", " + (t3 + ", " + (t4 + ", " + t5))))
  {
    var ts := [t0, t1, t2, t3, t4, t5];
    assert ts[1..][1..] == ts[2..];
    assert ts[2..][1..] == ts[3..];
    assert ts[3..][1..] == ts[4..];
    assert ts[4..][1..] == ts[5..];
    assert Join(ts[5..], ", ") == t5;
    assert Join(ts[4..], ", ") == t4 + ", " + t5;
    assert Join(ts[3..], ", ") == t3 + ", " + (t4 + ", " + t5);
    assert Join(ts[2..], ", ") == t2 + ", " + (t3 + ", " + (t4 + ", " + t5));
    assert Join(ts[1..], ", ") == t1 + ", " + (t2 + ", " + (t3 + ", " + (t4 + ", " + t5)));
  }

  /** The members of the record, serialised, in the order the dict literal
      lists them. */
  lemma RecordMembersRendered(actor: string, action: string, resourceType: string, resourceId: string,
                              timestamp: Value, oldVal: Value, newVal: Value)
    ensures RenderMembers(AuditChain.LogData(actor, action, resourceType, resourceId, timestamp, oldVal, newVal).members)
            == [Pair("actor", JsonText.Quote(actor)), Pair("action", JsonText.Quote(action)),
                Pair("resource", JsonText.Quote(resourceType + ":" + resourceId)),
                Pair("timestamp", Dumps(timestamp)), Pair("old", Dumps(oldVal)), Pair("new", Dumps(newVal))]
  {
  }

  /** A key made of plain characters is written between quotes unchanged. */
  lemma PlainField(key: string, text: string)
    requires JsonText.PlainText(key)
    ensures JsonText.Quote(key) + ": " + text == Field(key, text)
  {
    JsonText.QuotePlain(key);
  }

  /** Six pairs with plain keys written out as `"key": text`. */
  lemma PlainPairTexts(k0: string, k1: string, k2: string, k3: string, k4: string, k5: string,
                       t0: string, t1: string, t2: string, t3: string, t4: string, t5: string)
    requires JsonText.PlainText(k0) && JsonText.PlainText(k1) && JsonText.PlainText(k2) && JsonText.PlainText(k3) && JsonText.PlainText(k4) && JsonText.PlainText(k5)
    ensures PairTexts([Pair(k0, t0), Pair(k1, t1), Pair(k2, t2), Pair(k3, t3), Pair(k4, t4), Pair(k5, t5)])
            == [Field(k0, t0), Field(k1, t1), Field(k2, t2), Field(k3, t3), Field(k4, t4), Field(k5, t5)]
  {
    PlainField(k0, t0);
    PlainField(k1, t1);
    PlainField(k2, t2);
    PlainField(k3, t3);
    PlainField(k4, t4);
    PlainField(k5, t5);
  }

  /** The record's members, serialised and sorted. */
  lemma RecordSorted(actor: string, action: string, resourceType: string, resourceId: string,
                     timestamp: Value, oldVal: Value, newVal: Value)
    ensures SortByKey(RenderMembers(AuditChain.LogData(actor, action, resourceType, resourceId,
                                                       timestamp, oldVal, newVal).members))
            == [Pair("action", JsonText.Quote(action)), Pair("actor", JsonText.Quote(actor)),
                Pair("new", Dumps(newVal)), Pair("old", Dumps(oldVal)),
                Pair("resource", JsonText.Quote(resourceType + ":" + resourceId)),
                Pair("timestamp", Dumps(timestamp))]
  {
    RecordMembersRendered(actor, action, resourceType, resourceId, timestamp, oldVal, newVal);
    RecordPairsSorted(JsonText.Quote(actor), JsonText.Quote(action),
                      JsonText.Quote(resourceType + ":" + resourceId),
                      Dumps(timestamp), Dumps(oldVal), Dumps(newVal));
  }

  lemma RecordKeysPlain()
    ensures JsonText.PlainText("action") && JsonText.PlainText("actor") && JsonText.PlainText("new")
    ensures JsonText.PlainText("old") && JsonText.PlainText("resource") && JsonText.PlainText("timestamp")
  {
  }

  /** The record serialises to its six fields, alphabetically, joined. */
  lemma RecordFields(actor: string, action: string, resourceType: string, resourceId: string,
                     timestamp: Value, oldVal: Value, newVal: Value)
    ensures Dumps(AuditChain.LogData(actor, action, resourceType, resourceId, timestamp, oldVal, newVal))
            == "{" + Join([Field("action", JsonText.Quote(action)), Field("actor", JsonText.Quote(actor)),
                           Field("new", Dumps(newVal)), Field("old", Dumps(oldVal)),
                           Field("resource", JsonText.Quote(resourceType + ":" + resourceId)),
                           Field("timestamp", Dumps(timestamp))], ", ") + "}"
  {
    RecordKeysPlain();
    RecordSorted(actor, action, resourceType, resourceId, timestamp, oldVal, newVal);
    PlainPairTexts("action", "actor", "new", "old", "resource", "timestamp",
                   JsonText.Quote(action), JsonText.Quote(actor), Dumps(newVal), Dumps(oldVal),
                   JsonText.Quote(resourceType + ":" + resourceId), Dumps(timestamp));
  }

  /** The hashed record always has this shape: the alphabetical member
      order is fixed by the key names, not by how the dict was built. */
  lemma CanonicalRecordLayout(actor: string, action: string, resourceType: string, resourceId: string,
                              timestamp: Value, oldVal: Value, newVal: Value)
    ensures Dumps(AuditChain.LogData(actor, action, resourceType, resourceId, timestamp, oldVal, newVal))
            == RecordText(actor, action, resourceType, resourceId, timestamp, oldVal, newVal)
  {
    RecordFields(actor, action, resourceType, resourceId, timestamp, oldVal, newVal);
    JoinSix(Field("action", JsonText.Quote(action)), Field("actor", JsonText.Quote(actor)),
            Field("new", Dumps(newVal)), Field("old", Dumps(oldVal)),
            Field("resource", JsonText.Quote(resourceType + ":" + resourceId)),
            Field("timestamp", Dumps(timestamp)));
  }

  /** Records whose old and new texts differ in combined length have
      different texts. */
  lemma RecordLengthDiffers(actor: string, action: string, resourceType: string, resourceId: string,
                            timestamp: Value, old1: Value, new1: Value, old2: Value, new2: Value)
    requires |Dumps(old1)| + |Dumps(new1)| != |Dumps(old2)| + |Dumps(new2)|
    ensures RecordText(actor, action, resourceType, resourceId, timestamp, old1, new1)
            != RecordText(actor, action, resourceType, resourceId, timestamp, old2, new2)
  {
    assert |RecordText(actor, action, resourceType, resourceId, timestamp, old1, new1)|
           - |RecordText(actor, action, resourceType, resourceId, timestamp, old2, new2)|
           == |Dumps(old1)| + |Dumps(new1)| - |Dumps(old2)| - |Dumps(new2)|;
  }

  lemma CancelLeft(a: string, x: string, y: string)
    requires a + x == a + y
    ensures x == y
  {
    assert x == (a + x)[|a|..];
    assert y == (a + y)[|a|..];
  }

  predicate EndsWith(x: string, suffix: string) {
    |suffix| <= |x| && x[|x| - |suffix|..] == suffix
  }

  lemma EndsWithConcat(a: string, b: string, suffix: string)
    requires EndsWith(b, suffix)
    ensures EndsWith(a + b, suffix)
  {
    assert (a + b)[|a + b| - |suffix|..] == b[|b| - |suffix|..];
  }

  lemma EndsWithExtend(x: string, suffix: string, tail: string)
    requires EndsWith(x, suffix)
    ensures EndsWith(x + tail, suffix + tail)
  {
    var n := |x| - |suffix|;
    assert (x + tail)[n..] == x[n..] + tail;
  }

  /** The text of a timestamp that needs no escaping closes the record:
      `"timestamp": "<ts>"}` is always its last member. */
  lemma RecordClockSuffix(actor: string, action: string, resourceType: string, resourceId: string,
                          ts: string, oldVal: Value, newVal: Value)
    requires JsonText.PlainText(ts)
    ensures EndsWith(RecordText(actor, action, resourceType, resourceId, Str(ts), oldVal, newVal),
                     "\"" + ts + "\"" + "}")
  {
    var q := "\"" + ts + "\"";
    JsonText.QuotePlain(ts);
    assert Dumps(Str(ts)) == q;
    var fAction, fActor := Field("action", JsonText.Quote(action)), Field("actor", JsonText.Quote(actor));
    var fNew, fOld := Field("new", Dumps(newVal)), Field("old", Dumps(oldVal));
    var fResource := Field("resource", JsonText.Quote(resourceType + ":" + resourceId));
    var fTime := Field("timestamp", q);
    assert EndsWith(q, q);
    EndsWithConcat("\"" + "timestamp" + "\"" + ": ", q, q);
    var y5 := fResource + ", " + fTime;
    EndsWithConcat(fResource + ", ", fTime, q);
    var y4 := fOld + ", " + y5;
    EndsWithConcat(fOld + ", ", y5, q);
    var y3 := fNew + ", " + y4;
    EndsWithConcat(fNew + ", ", y4, q);
    var y2 := fActor + ", " + y3;
    EndsWithConcat(fActor + ", ", y3, q);
    var y1 := fAction + ", " + y2;
    EndsWithConcat(fAction + ", ", y2, q);
    EndsWithConcat("{", y1, q);
    EndsWithExtend("{" + y1, q, "}");
  }

  /** The quote that opens a closing timestamp. */
  lemma ClockOpeningQuote(t: string, ts: string)
    requires EndsWith(t, "\"" + ts + "\"" + "}")
    ensures |t| >= |ts| + 3 && t[|t| - |ts| - 3] == '"'
  {
    assert t[|t| - |ts| - 3] == ("\"" + ts + "\"" + "}")[0];
  }

  /** No quote inside a closing timestamp that needs no escaping. */
  lemma NoQuoteInClock(t: string, ts: string)
    requires JsonText.PlainText(ts)
    requires EndsWith(t, "\"" + ts + "\"" + "}")
    ensures forall k :: |t| - |ts| - 2 <= k < |t| - 2 ==> t[k] != '"'
  {
    var n, sfx := |t|, "\"" + ts + "\"" + "}";
    forall k | n - |ts| - 2 <= k < n - 2 ensures t[k] != '"' {
      assert t[k] == sfx[k - (n - |ts| - 3)] == ts[k - (n - |ts| - 2)];
      assert JsonText.Plain(ts[k - (n - |ts| - 2)]);
    }
  }

  /** Two texts that both end in a quoted timestamp and a closing brace,
      each timestamp free of quotes and backslashes, end in the same
      timestamp: the quote that opens the shorter one would otherwise fall
      inside the longer one. */
  lemma ClockSuffixDetermines(t: string, ts1: string, ts2: string)
    requires JsonText.PlainText(ts1) && JsonText.PlainText(ts2)
    requires EndsWith(t, "\"" + ts1 + "\"" + "}") && EndsWith(t, "\"" + ts2 + "\"" + "}")
    ensures ts1 == ts2
  {
    ClockOpeningQuote(t, ts1);
    ClockOpeningQuote(t, ts2);
    NoQuoteInClock(t, ts1);
    NoQuoteInClock(t, ts2);
    assert |ts1| == |ts2|;
    var s1, s2 := "\"" + ts1 + "\"" + "}", "\"" + ts2 + "\"" + "}";
    assert s1 == s2;
    assert ts1 == s1[1..|ts1| + 1] && ts2 == s2[1..|ts2| + 1];
  }

  /** Records whose timestamps need no escaping have the same text only if
      their timestamps are equal, whatever their other members hold. */
  lemma TimestampFromRecord(actor: string, action: string, resourceType: string, resourceId: string,
                            ts1: string, old1: Value, new1: Value, ts2: string, old2: Value, new2: Value)
    requires JsonText.PlainText(ts1) && JsonText.PlainText(ts2)
    ensures RecordText(actor, action, resourceType, resourceId, Str(ts1), old1, new1)
            == RecordText(actor, action, resourceType, resourceId, Str(ts2), old2, new2)
            ==> ts1 == ts2
  {
    RecordClockSuffix(actor, action, resourceType, resourceId, ts1, old1, new1);
    RecordClockSuffix(actor, action, resourceType, resourceId, ts2, old2, new2);
    if RecordText(actor, action, resourceType, resourceId, Str(ts1), old1, new1)
       == RecordText(actor, action, resourceType, resourceId, Str(ts2), old2, new2)
    {
      ClockSuffixDetermines(RecordText(actor, action, resourceType, resourceId, Str(ts1), old1, new1), ts1, ts2);
    }
  }
}

=== FILE: scan.dfy ===
/** A front-to-back scan that asks a per-element check for findings and
    concatenates them in scan order: the loop shape of
    `verify_chain_integrity`, with the check left as a parameter. */
module Scan {

  function Collect<E, B>(check: E -> seq<B>, xs: seq<E>): (r: seq<B>)
    decreases |xs|
  {
    if |xs| == 0 then [] else Collect(check, xs[..|xs| - 1]) + check(xs[|xs| - 1])
  }

  /** Scanning a concatenation is scanning each part in turn. */
  lemma {:induction false} CollectSplit<E, B>(check: E -> seq<B>, a: seq<E>, b: seq<E>)
    ensures Collect(check, a + b) == Collect(check, a) + Collect(check, b)
    decreases |b|
  {
    if |b| == 0 {
      assert a + b == a;
    } else {
      var b' := b[..|b| - 1];
      assert (a + b)[..|a + b| - 1] == a + b';
      assert (a + b)[|a + b| - 1] == b[|b| - 1];
      CollectSplit(check, a, b');
    }
  }

  lemma CollectOne<E, B>(check: E -> seq<B>, x: E)
    ensures Collect(check, [x]) == check(x)
  {
    assert [x][..0] == [];
  }

  /** Element `k` contributes its findings between those of the elements
      before it and those of the elements after it. */
  lemma {:induction false} CollectAround<E, B>(check: E -> seq<B>, xs: seq<E>, k: nat)
    requires k < |xs|
    ensures Collect(check, xs) == Collect(check, xs[..k]) + check(xs[k]) + Collect(check, xs[k + 1..])
  {
    var upto, after := xs[..k + 1], xs[k + 1..];
    assert upto[..k] == xs[..k] && upto[k] == xs[k];
    assert Collect(check, upto) == Collect(check, xs[..k]) + check(xs[k]);
    assert xs == upto + after;
    CollectSplit(check, upto, after);
  }

  /** Nothing is found exactly when every element's check finds nothing. */
  lemma {:induction false} CollectEmpty<E, B>(check: E -> seq<B>, xs: seq<E>)
    ensures Collect(check, xs) == [] <==> forall i :: 0 <= i < |xs| ==> check(xs[i]) == []
    decreases |xs|
  {
    if |xs| > 0 {
      var init := xs[..|xs| - 1];
      CollectEmpty(check, init);
      assert forall i :: 0 <= i < |init| ==> init[i] == xs[i];
    }
  }

  /** A finding is reported exactly when some element's check produces it. */
  lemma {:induction false} CollectMember<E, B>(check: E -> seq<B>, xs: seq<E>, y: B)
    ensures y in Collect(check, xs) <==> exists i :: 0 <= i < |xs| && y in check(xs[i])
    decreases |xs|
  {
    if |xs| > 0 {
      var init := xs[..|xs| - 1];
      CollectMember(check, init, y);
      assert forall i :: 0 <= i < |init| ==> init[i] == xs[i];
    }
  }

  /** When each check finds at most one thing, a scan finds at most one
      thing per element. */
  lemma {:induction false} CollectLength<E, B>(check: E -> seq<B>, xs: seq<E>)
    requires forall x :: |check(x)| <= 1
    ensures |Collect(check, xs)| <= |xs|
    decreases |xs|
  {
    if |xs| > 0 {
      CollectLength(check, xs[..|xs| - 1]);
    }
  }
}

=== FILE: str_order.dfy ===
/** Python's ordering of `str` values, which `json.dumps(..., sort_keys=True)`
    uses to order object keys: lexicographic by code point, a proper prefix
    sorting before any longer string. */
module StrOrder {

  predicate Less(a: string, b: string)
    decreases |a|
  {
    if |b| == 0 then false
    else if |a| == 0 then true
    else if a[0] != b[0] then a[0] < b[0]
    else Less(a[1..], b[1..])
  }

  lemma {:induction false} LessIrreflexive(a: string)
    ensures !Less(a, a)
    decreases |a|
  {
    if |a| > 0 {
      LessIrreflexive(a[1..]);
    }
  }

  lemma {:induction false} LessTransitive(a: string, b: string, c: string)
    requires Less(a, b) && Less(b, c)
    ensures Less(a, c)
    decreases |a|
  {
    if |a| > 0 && a[0] == b[0] && b[0] == c[0] {
      LessTransitive(a[1..], b[1..], c[1..]);
    }
  }

  /** Any two different strings are ordered one way or the other. */
  lemma {:induction false} LessTotal(a: string, b: string)
    requires a != b
    ensures Less(a, b) || Less(b, a)
    decreases |a|
  {
    if |a| > 0 && |b| > 0 && a[0] == b[0] {
      assert a == [a[0]] + a[1..] && b == [b[0]] + b[1..];
      LessTotal(a[1..], b[1..]);
    }
  }
}

=== FILE: track_changes.dfy ===
/** The decision `track_changes` makes once the tracked block has run: log
    an UPDATE of the resource when its state before and after differ under
    Python's `==`, and nothing otherwise. The two states are what
    `_get_current_state` returned; `None` is `Null`. */
module TrackChanges {
  import opened Json
  import opened JsonEquiv
  import opened AuditChain

  const UpdateAction := "UPDATE"

  function TrackChanges(s: Signer, log: Log, actorId: string, resourceType: string, resourceId: string,
                        before: Value, after: Value, hashedAt: string, id: string, createdAt: string): (r: Log)
    ensures |r| == |log| <==> PyEq(before, after)
    ensures |r| == |log| + 1 <==> !PyEq(before, after)
    ensures r[..|log|] == log
    ensures |r| > |log| ==>
              && r[|log|].action == UpdateAction
              && r[|log|].actorId == actorId
              && r[|log|].resourceType == resourceType && r[|log|].resourceId == resourceId
              && r[|log|].oldValues == StoredValue(before) && r[|log|].newValues == StoredValue(after)
              && r[|log|].previousHash == Tip(log)
  {
    if PyEq(before, after) then log
    else Append(s, log, Change(actorId, UpdateAction, resourceType, resourceId, before, after), hashedAt, id, createdAt)
  }

  lemma PyEqReflexive(v: Value)
    ensures PyEq(v, v)
  {
    EquivReflexive(v);
    EquivImpliesPyEq(v, v);
  }

  /** A block that leaves the resource as it was, or only reorders the
      members of its dicts, logs nothing. */
  lemma UnchangedLogsNothing(s: Signer, log: Log, actorId: string, resourceType: string, resourceId: string,
                             before: Value, after: Value, hashedAt: string, id: string, createdAt: string)
    requires Equiv(before, after)
    ensures TrackChanges(s, log, actorId, resourceType, resourceId, before, after, hashedAt, id, createdAt) == log
  {
    EquivImpliesPyEq(before, after);
  }

  /** Python's `True == 1`: a flag stored as `True` before and `1` after is
      no change, so nothing is logged. */
  lemma TrueEqualsOneLogsNothing(s: Signer, log: Log, actorId: string, resourceType: string, resourceId: string,
                                 key: string, hashedAt: string, id: string, createdAt: string)
    ensures TrackChanges(s, log, actorId, resourceType, resourceId,
                         Obj([Member(key, Bool(true))]), Obj([Member(key, Int(1))]), hashedAt, id, createdAt) == log
  {
    var before, after := Obj([Member(key, Bool(true))]), Obj([Member(key, Int(1))]);
    var m, n := before.members[0], after.members[0];
    assert PyEq(m.value, n.value);
    assert 0 <= 0 < |after.members| && after.members[0].key == m.key && PyEq(m.value, after.members[0].value);
    assert PyMatchedIn(m, after.members);
    assert 0 <= 0 < |before.members| && before.members[0].key == n.key && PyEq(before.members[0].value, n.value);
    assert PyMatchedBy(before.members, n);
    assert PyEq(before, after);
  }

  /** A change that is logged heads the resource's trail: the new row
      chains to the previous tip, and on a chain that verified, the report
      afterwards is that of the new row alone. */
  lemma ChangeIsAppended(s: Signer, log: Log, actorId: string, resourceType: string, resourceId: string,
                         before: Value, after: Value, hashedAt: string, id: string, createdAt: string)
    requires !PyEq(before, after)
    requires Verify(s, log).0
    ensures var r := TrackChanges(s, log, actorId, resourceType, resourceId, before, after, hashedAt, id, createdAt);
            Verify(s, r) == (Intact(s, r[|log|]), EntryBreaks(s, r[|log|]))
  {
    AppendThenVerify(s, log, Change(actorId, UpdateAction, resourceType, resourceId, before, after),
                     hashedAt, id, createdAt);
  }
}
